=== FILE: README.md ===
# Modal widget decision logic, in Dafny

This project models the decision logic inside a React modal dialog widget
and proves properties of it. There are three pieces.

- **Focus trap** (`useFocusTrap`, in two copies). A scan picks the focusable
  descendants of a root element in document order and keeps the first and
  the last. The Tab handler moves focus from the last to the first (Tab) or
  from the first to the last (Shift+Tab) and cancels the browser default.
  Every other key press is left alone.
- **Modal lifecycle** (`Modal` / `ModalOpened`). This is a state machine.
  The modal is unmounted while `isOpen` is false. Once mounted, it has an
  animation state (`undefined`, "in" or "out") and a document click listener.
  A close request sets the animation to "out" and schedules the caller's
  `onClose` 500 time units later. Timers are an explicit queue, and a `Tick`
  event advances the clock.
- **Footer click composition** (`ModalFooter`, in two versions). Each control
  runs the caller's `onClick` and then `onClose`. JSX props are a map, and
  attributes and spreads are merged left to right, so the later key wins.
  The two versions spread the caller's props at different points, and that
  changes what a click does.

Modules, one per file:

- `Wrappers`: `Option`.
- `Dom`: elements, what "distinct" means, and the HTML integer reading of `tabindex`.
- `Sequences`: what "subsequence" means.
- `FocusScan`: the selector rule and the `querySelectorAll` scan.
- `FocusTrap`: src/hooks/useFocusTrap/useFocusTrap.tsx.
- `LegacyFocusTrap`: src/ui/Modal/useFocusTrap.tsx.
- `Props`: the props map, the merge, click effects, and the footer render
  shared by both footers. The spread order is a parameter of the render.
- `Footer`: src/ui/Modal/Footer/Footer.tsx, which spreads the caller's props first.
- `LegacyFooter`: src/ui/Modal/Footer.tsx, which spreads them last. Its body is the same code as the
  footer written inline in src/ui/Modal/Modal.tsx, so the modal model uses it.
- `Timers`: the pending-task queue.
- `ModalLifecycle`: src/ui/Modal/Modal.tsx.

JavaScript identity and `undefined` are made explicit:

- An `Element` carries an `id`, so value equality stands for `===`.
- `document.activeElement` is an `Option<Element>`, where `None` is `null`.
- The stored boundaries are `NoFocusable`, the `{first: undefined, last:
  undefined}` object an empty scan produces, or `Bounds(first, last)`.
- The hook state is `None` until the effect first runs with a non-null root.
- `null === undefined` is false, so an empty set or an unset state never
  matches the active element.

In these places the code behaves differently from what a modal dialog is
usually expected to do; the model follows the code.

- Dismissal is not idempotent. Modal.tsx:56-59 has no guard, so `n` close
  requests queue `n` calls of `onClose` (`RepeatedRequestsEachSchedule`,
  `RequestsFireAfterDelay`).
- A footer control does not always close. In the inline footer of Modal.tsx
  and in src/ui/Modal/Footer.tsx, the caller's props are spread after the
  composed handler. A caller `onClick` therefore replaces it, and `onClose`
  is not called (`FooterCallerOnClickSkipsClose`,
  `LegacyFooter.ClickByCallerOnClick`). Footer/Footer.tsx writes the composed
  handler last, so there every click whose caller callback returns closes
  (`Footer.ClickRunsCallerThenClose`).
- A single focusable element is trapped. Tab and Shift+Tab both keep focus
  on it and cancel the default (`FocusTrap.SingleElementHoldsFocus`).
- An element with any `tabindex` other than exactly "-1" is focusable, even
  when it is disabled or its tabindex is negative, such as "-2".
- The trap can leak. A browser reads `tabindex` as an HTML integer, so
  " -1" is negative, "-0" is zero, and "" or "abc" is ignored. Its Tab key
  skips an element whose `tabindex` is negative, a disabled control, and an
  element that is not natively focusable and has an unparsable `tabindex`.
  The scan keeps all three (`FocusScan.TabIndexReadAsInteger`). When such an
  element is an end of the scanned set, the handler never sees focus on that
  end, and the browser moves focus out of the root
  (`FocusTrap.TrapLeaksPastUntabbableEnd`, `FocusTrap.EmptyTabIndexAtEndLeaks`).
  The other way round, a link with `href` and the `disabled` attribute is
  visited by Tab but not selected, since `disabled` means nothing on a
  link; Tab then reaches an element the handler does not know
  (`FocusTrap.DisabledLinkIsTabbedButNotScanned`). When the selectors pick
  exactly the descendants the browser tabs to (`FocusScan.Tabbable`), the
  trap holds (`FocusTrap.TabbableRootIsTrapped`).
- The code has no Escape handling, no focus restoration and no
  accessibility attribute logic, so none of these are modelled.

## Model

| member | source | states |
|---|---|---|
| FocusScan.MatchesSomeMember | src/hooks/useFocusTrap/useFocusTrap.tsx:34-36 | an element matches the comma-joined selector group exactly when it matches some member of the list |
| FocusScan.SelectorListMeansFocusable | src/hooks/useFocusTrap/useFocusTrap.tsx:4-11 | the six comma-joined selectors select exactly: a link with href or a button/textarea/input/select, without the disabled attribute, or any element whose tabindex is present and not exactly "-1" |
| FocusScan.Scan | src/hooks/useFocusTrap/useFocusTrap.tsx:34-36 | the scan returns exactly the matching descendants, each once, in document order (a subsequence of the descendants) |
| FocusScan.ScanOfNoMatchIsEmpty | src/hooks/useFocusTrap/useFocusTrap.tsx:34-41 | a root without a matching descendant yields an empty scan |
| FocusScan.ScanHeadIsFirstMatch | src/hooks/useFocusTrap/useFocusTrap.tsx:38-40 | the first scanned element is the first matching descendant; everything before it is skipped |
| FocusScan.ScanLastIsLastMatch | src/hooks/useFocusTrap/useFocusTrap.tsx:38-41 | the last scanned element is the last matching descendant |
| FocusScan.ScanHeadPosition | src/hooks/useFocusTrap/useFocusTrap.tsx:34-40 | a non-empty scan starts at a position of the descendants with no matching descendant before it |
| FocusScan.ScanLastPosition | src/hooks/useFocusTrap/useFocusTrap.tsx:34-41 | a non-empty scan ends at a position of the descendants with no matching descendant after it |
| FocusScan.ScanEndsAreNodes | src/hooks/useFocusTrap/useFocusTrap.tsx:34-41 | both ends of a non-empty scan are matching descendants |
| FocusTrap.HookSelectorsMeanFocusable | src/hooks/useFocusTrap/useFocusTrap.tsx:4-11 | this copy's selector list is exactly the focusability rule |
| FocusTrap.ScanEffect | src/hooks/useFocusTrap/useFocusTrap.tsx:30-42 | a null root keeps the previous state; otherwise boundaries exist iff some descendant is focusable, and both are focusable descendants |
| FocusTrap.FirstFocusableIsFirstInDocumentOrder | src/hooks/useFocusTrap/useFocusTrap.tsx:38-45 | firstFocusable is the first focusable descendant in document order; disabled buttons before it are skipped |
| FocusTrap.LastIsLastInDocumentOrder | src/hooks/useFocusTrap/useFocusTrap.tsx:38-41 | the stored last is the last focusable descendant in document order |
| FocusTrap.HandleTab | src/hooks/useFocusTrap/useFocusTrap.tsx:47-66 | non-Tab keys do nothing; the default is cancelled iff focus moves, iff a Tab lands on the boundary of its direction (first for Shift+Tab, last for Tab); then focus goes to the other end |
| FocusTrap.FocusOutsideRootPassesThrough | src/hooks/useFocusTrap/useFocusTrap.tsx:51-63 | focus outside the focusable set of the root (or no focus) is never intercepted |
| FocusTrap.NothingToTrapPassesThrough | src/hooks/useFocusTrap/useFocusTrap.tsx:31-41 | an unset state (null root) or an empty set never moves focus or cancels the default |
| FocusTrap.SingleElementHoldsFocus | src/hooks/useFocusTrap/useFocusTrap.tsx:51-62 | with one focusable element, Tab and Shift+Tab both keep focus on it and cancel the default |
| FocusTrap.WrapAtBoundaries | src/hooks/useFocusTrap/useFocusTrap.tsx:51-62 | with the browser moving to the neighbour elsewhere, Tab and Shift+Tab from any member land on the cyclic next/previous member |
| FocusTrap.TabCyclesThroughSet | src/hooks/useFocusTrap/useFocusTrap.test.ts:38-103 | after a scan of distinct descendants, Tab walks the focusable set forwards and Shift+Tab backwards, wrapping at both ends, when the browser's tab order is that set |
| FocusTrap.ScanIsTabOrderWhenAllTabbable | src/hooks/useFocusTrap/useFocusTrap.tsx:4-11 | when the descendants the selectors pick are exactly those the browser tabs to, the selector scan is exactly the browser's tab order within the root |
| FocusTrap.TabbableRootIsTrapped | src/hooks/useFocusTrap/useFocusTrap.tsx:47-66 | when the selectors pick exactly the descendants the browser tabs to, Tab and Shift+Tab from any tabbable descendant land on its cyclic neighbour in the browser's tab order; focus never leaves the root |
| FocusScan.TabIndexReadAsInteger | src/hooks/useFocusTrap/useFocusTrap.tsx:10 | the tabindex selector matches " -1", "-0" and "" alike; a browser skips a div with " -1" or "", visits one with "-0", and ignores "" on a button |
| FocusTrap.EmptyTabIndexAtEndLeaks | src/hooks/useFocusTrap/useFocusTrap.tsx:4-11 | for a button followed by a div with tabindex="", the tab order is the button alone, and Tab from it is not intercepted and leaves the root |
| FocusTrap.DisabledLinkIsTabbedButNotScanned | src/hooks/useFocusTrap/useFocusTrap.tsx:4-11 | for two buttons around a link with href and disabled, the tab order is all three while the scan keeps only the buttons |
| FocusTrap.TrapLeaksPastUntabbableEnd | src/hooks/useFocusTrap/useFocusTrap.tsx:4-11 | when the last (first) scanned element is not tabbable, Tab (Shift+Tab) from the last (first) tabbable descendant is not intercepted, and the browser moves focus out of the root |
| LegacyFocusTrap.ModalSelectorsMeanFocusable | src/ui/Modal/useFocusTrap.tsx:3-10 | the older copy's selector list is exactly the same focusability rule |
| LegacyFocusTrap.ScanEffect | src/ui/Modal/useFocusTrap.tsx:18-28 | a null root keeps the state; otherwise boundaries exist iff some descendant is focusable, both are focusable descendants, first sits at a position with no focusable descendant before it, and last at one with none after it |
| LegacyFocusTrap.ModalBoundaries | src/ui/Modal/useFocusTrap.tsx:21-28 | the stored object is empty iff no descendant is focusable; otherwise its ends are the first and the last focusable descendants |
| LegacyFocusTrap.ModalScanNonEmpty | src/ui/Modal/useFocusTrap.tsx:3-23 | the older copy's scan finds something iff some descendant is focusable |
| LegacyFocusTrap.ModalScanEndsFocusable | src/ui/Modal/useFocusTrap.tsx:21-28 | both ends of a non-empty scan are focusable descendants |
| LegacyFocusTrap.ModalScanEndsPosition | src/ui/Modal/useFocusTrap.tsx:21-28 | no focusable descendant precedes the scan's first element or follows its last |
| LegacyFocusTrap.ScanEffectMatchesHookCopy | src/ui/Modal/useFocusTrap.tsx:18-28 | for every root the older scan stores the same boundaries as the hooks copy |
| LegacyFocusTrap.HandleTab | src/ui/Modal/useFocusTrap.tsx:32-47 | non-Tab keys do nothing; Shift+Tab intercepts only on first and focuses last; Tab without shift intercepts only on last and focuses first |
| LegacyFocusTrap.ShiftOnLastIsNotIntercepted | src/ui/Modal/useFocusTrap.tsx:36-44 | with shift held on the last of two or more elements, the forward branch is not taken |
| LegacyFocusTrap.HandleTabMatchesHookCopy | src/ui/Modal/useFocusTrap.tsx:32-47 | for every state, key, shift flag and active element both copies decide the same |
| Props.Spread | src/ui/Modal/Footer/Footer.tsx:42-49 | JSX props merged left to right: the keys are the union, and the later object wins on shared keys |
| Props.ClickClosesAtMostOnce | src/ui/Modal/Footer.tsx:25-28 | a click closes at most once, and closes iff the button's onClick is a composed handler |
| Props.ButtonFor | src/ui/Modal/Footer/Footer.tsx:42-49 | with the caller spread first, every caller prop survives except variant and onClick, which are always the forced variant and the composed handler; with the spread last (src/ui/Modal/Footer.tsx:23-29), every caller prop wins, and the forced variant and composed handler survive only where the caller has no such key |
| Props.Render | src/ui/Modal/Footer/Footer.tsx:41-60 | for either spread order, the action button exists iff action is given and comes first; the dismiss button exists iff dismiss is given and comes last |
| Props.ClickHitsOwnButton | src/ui/Modal/Footer/Footer.tsx:41-60 | clicking a control runs its own button's handler; a control that is not given does nothing |
| Footer.ClickRunsCallerThenClose | src/ui/Modal/Footer/Footer.tsx:41-60 | for caller props of the declared type, clicking a rendered control runs the caller's onClick if one is given, then onClose exactly once; an absent control does nothing |
| Footer.VariantIsForced | src/ui/Modal/Footer/Footer.tsx:42-54 | every rendered button has variant "action" (action control) or "default" (dismiss control) |
| LegacyFooter.ClickByCallerOnClick | src/ui/Modal/Footer.tsx:25-39 | no caller onClick key: the click closes; a caller callback: only it runs, no close; onClick undefined: nothing runs; it closes iff there is no onClick key |
| LegacyFooter.ClickClosesAtMostOnceHere | src/ui/Modal/Footer.tsx:25-38 | no click on this footer closes more than once |
| LegacyFooter.VariantKeptForCallerProps | src/ui/Modal/Footer.tsx:7-12 | props of the declared caller type (no variant) keep the forced variant |
| LegacyFooter.SameClickAsFooterIffNoCallerOnClick | src/ui/Modal/Footer.tsx:23-29 | the two merge orders click alike iff the caller's props carry no onClick key |
| Timers.FiredAndRemainingPartition | src/ui/Modal/Modal.tsx:58 | on each tick the number of fired tasks plus the number still pending is the queue length |
| Timers.FiredAndRemainingKeepCallbacks | src/ui/Modal/Modal.tsx:58 | on each tick the fired callbacks and the pending ones are, as a multiset, exactly the queued callbacks: none lost or duplicated |
| Timers.FiredInQueueOrder | src/ui/Modal/Modal.tsx:58 | the fired callbacks are a subsequence of the queued callbacks, so they run in queue order |
| Timers.DuePrefixFires | src/ui/Modal/Modal.tsx:58 | for a queue whose first k timers are due and the rest not, a tick runs exactly the first k callbacks in order and keeps the rest pending |
| Timers.RemainingAreTheLaterTasks | src/ui/Modal/Modal.tsx:58 | the timers still pending are exactly those not yet due, in firing order |
| Timers.SameTasksAllFire | src/ui/Modal/Modal.tsx:58 | n identical tasks all fire, in order, once due |
| Timers.NothingDueKeepsQueue | src/ui/Modal/Modal.tsx:58 | a tick before every task's due time fires nothing and keeps the queue |
| ModalLifecycle.FooterButtons | src/ui/Modal/Modal.tsx:97-103 | a footer is rendered iff footer.action or footer.dismiss is present; footer={} renders none |
| ModalLifecycle.RemoveListener | src/ui/Modal/Modal.tsx:69-71 | removing a listener leaves exactly the other registrations |
| ModalLifecycle.InitialSatisfiesInv | src/ui/Modal/Modal.tsx:31-38 | the unopened world is consistent: no listener, no timer |
| ModalLifecycle.AnimatedOnClosePreservesInv | src/ui/Modal/Modal.tsx:56-59 | a close request keeps the timer queue in firing order |
| ModalLifecycle.ApplyEffectsPreservesInv | src/ui/Modal/Modal.tsx:97-102 | running a footer click's effects keeps the invariant |
| ModalLifecycle.AdvancePreservesInv | src/ui/Modal/Modal.tsx:58 | a clock tick keeps the pending timers in firing order and due within 500 units |
| ModalLifecycle.StepPreservesInv | src/ui/Modal/Modal.tsx:61-72 | every event keeps the invariant: ordered timers due within 500 units, and the document holds the instance's own listener exactly while it is mounted |
| ModalLifecycle.RunPreservesInv | src/ui/Modal/Modal.tsx:68-71 | in every reachable world the document holds at most one click listener |
| ModalLifecycle.ClosedModalIsInert | src/ui/Modal/Modal.tsx:31-38 | while isOpen is false, no listener is registered and clicks and renders with isOpen false change nothing |
| ModalLifecycle.OpenThenEffects | src/ui/Modal/Modal.tsx:52-76 | opening renders with the animation undefined and no listener; the mount effects then register one listener and set the animation to "in" |
| ModalLifecycle.CloseRequestIsDeferred | src/ui/Modal/Modal.tsx:56-59 | a close request sets "out" and queues one onClose due 500 units later; nothing runs synchronously |
| ModalLifecycle.OnlyOverlayClickCloses | src/ui/Modal/Modal.tsx:61-66 | a document click closes iff the listener is registered and the target is the overlay itself; then it acts like the header cross |
| ModalLifecycle.UnmountRemovesListener | src/ui/Modal/Modal.tsx:68-71 | unmounting removes the instance's listener and leaves pending timers in place |
| ModalLifecycle.RepeatedRequestsEachSchedule | src/ui/Modal/Modal.tsx:56-59 | n close requests queue n onClose tasks and call nothing yet |
| ModalLifecycle.QuietTick | src/ui/Modal/Modal.tsx:58 | a tick with no task due only moves the clock |
| ModalLifecycle.NothingFiresEarly | src/ui/Modal/Modal.tsx:58 | before any task is due, ticks only advance the clock |
| ModalLifecycle.DueTick | src/ui/Modal/Modal.tsx:58 | a tick at which n copies of one task are due runs all n callbacks and empties the queue |
| ModalLifecycle.QueuedClosesFireTogether | src/ui/Modal/Modal.tsx:58 | queued closes stay silent for 499 ticks and all run on the 500th |
| ModalLifecycle.RequestsFireAfterDelay | src/ui/Modal/Modal.tsx:56-59 | from a mounted modal with nothing pending, n close requests call onClose n times, exactly 500 ticks later and not earlier |
| ModalLifecycle.FooterRoutesLikeCross | src/ui/Modal/Modal.tsx:89-102 | a footer control without a caller onClick has the same effect as the header cross |
| ModalLifecycle.CallbackEffectLogs | src/ui/Modal/Modal.tsx:140-159 | a lone caller callback only appends to the log: no animation change, no timer |
| ModalLifecycle.FooterCallerOnClickSkipsClose | src/ui/Modal/Modal.tsx:140-159 | in the inline footer, a caller onClick replaces the composed handler: the callback runs, and there is no animation change and no onClose |

## Left out

- Markup, CSS classes, icons, `Button`, `Header`, `Cross`, the demo
  `App` pages and the `size` flag: pure presentation. The animation state
  is modelled, but the fade class names derived from it are not.
- `createPortal`, the providers and the context. Their only logic is
  `container ?? document.body`, and the render target plays no part in
  any decision here.
- The DOM itself. An element is reduced to its tag, `href` presence,
  `disabled` attribute presence, `tabindex` text and identity. Other
  attributes and selector subtleties are not modelled.
- FocusTrap.DefaultMove: browser default tab navigation is modelled only
  within the root, as a move to the neighbour in the sequence it is given,
  or out of the root past either end. This assumes the root's tabbable
  descendants are consecutive in the page's tab order (no positive
  `tabindex`). `FocusTrap.TabCyclesThroughSet` also assumes that the tab
  order is the scanned set, which holds only when every focusable
  descendant is tabbable (`FocusTrap.TabbableRootIsTrapped`); otherwise the
  trap leaks (`FocusTrap.TrapLeaksPastUntabbableEnd`). `FocusAfterTab`
  reports the handler's target as the new focus; in a browser `.focus()` on
  an element that cannot take focus (a `div` whose `tabindex` does not
  parse, say) leaves focus where it was.
- FocusScan.Tabbable: the browser's tab order is approximated from the
  element alone: focusable, minus disabled form controls, a negative
  `tabindex`, and an unparsable `tabindex` on an element that is not
  natively focusable. Ancestors and other attributes are not modelled, so
  it does not cover a control inside `<fieldset disabled>`,
  `<input type="hidden">`, or hidden or inert subtrees. The scan selects
  all of these, and the browser skips them. A link with `href` counts as
  tabbable whether or not it carries `disabled`.
- FocusTrap.ScanIsTabOrderWhenAllTabbable: the tab order is `FocusScan.Tabbable`,
  which knows only the five tags of the selectors and generic elements.
  Elements a browser tabs to without a `tabindex` that the model cannot
  represent (`<summary>`, `<iframe>`, `<area href>`, `[contenteditable]`,
  `<audio controls>`) count as untabbable, so for roots that contain them
  the lemma says nothing about the real tab order.
- FocusTrap.TabbableRootIsTrapped: holds for the model's tab order only;
  the same elements (`<summary>`, `<iframe>`, `<area href>`,
  `[contenteditable]`) are tabbable in a browser but not selected, so a
  root containing one is outside what the lemma covers and the trap can
  leak there.
- FocusTrap.TrapLeaksPastUntabbableEnd: exhibits leaks only where a scanned
  end is untabbable in the model's sense. Leaks through tabbable elements
  the selectors miss (a disabled link, `<summary>`, `<iframe>`) are shown
  for the disabled link alone (`FocusTrap.DisabledLinkIsTabbedButNotScanned`).
- Re-running effects when a dependency changes. A new `onClose` identity on
  re-render would remove the click listener and add a new one. This is not
  modelled, because the configuration is fixed for one mount. A new root for
  the focus trap is modelled by calling `ScanEffect` again.
- The two mount effects (the listener registration and
  `setAnimation("in")`) commit together, in one `RunEffects` event.
- Several modal instances and nested modals: the model has one instance.
- Time comes in unit ticks. Equal due times fire in queue order, as
  `setTimeout` does.
- Props.Click: caller callbacks are assumed to return. A callback that
  throws skips the `onClose()` written after it in the composed handler,
  and the error escapes the click handler; the model always runs the close.
- Props.Click: an `onClick` that is neither a function nor `undefined`
  does nothing in the model. In JavaScript the composed handler's
  `p?.onClick?.()` would throw before `onClose`, and a caller function that
  happens to be a composed handler would be called, where the model skips
  it. The caller prop type `Props.CallerProps` rules both out, and the
  footer lemmas (`Footer.ClickRunsCallerThenClose` and the `LegacyFooter`
  lemmas) require it. `Props.ButtonFor`, `Props.Render` and
  `Props.ClickHitsOwnButton` state the prop merge for any props.
- Behaviour asserted only by src/ui/Modal/Modal.test.tsx against a different
  modal API is not modelled. This covers Escape closing, focus returning to
  a trigger, `aria-*` defaults, `role="dialog"` and initial focus.

=== FILE: dom.dfy ===
/**
 The slice of the DOM that the focus trap looks at: elements with the
 attributes its selectors test, and the identity the `===` comparisons use.
 */
module Dom {
  import opened Wrappers

  /**
   Tag names the selector rule distinguishes; every other tag is `OtherTag`,
   whose `name` is never "a", "button", "textarea", "input" or "select".
   */
  datatype Tag = Anchor | ButtonTag | TextArea | Input | Select | OtherTag(name: string)

  /**
   An element. `id` stands for object identity: two distinct DOM nodes have
   distinct ids, so value equality of `Element`s is the source's `===`.
   `disabled` and `hasHref` say whether the attribute is present at all;
   `tabIndex` is the raw attribute text, `None` when the attribute is absent.
   */
  datatype Element = Element(id: nat, tag: Tag, hasHref: bool, disabled: bool, tabIndex: Option<string>)

  /** No element occurs twice, as in the descendant list of a DOM tree. */
  predicate Distinct(s: seq<Element>) {
    forall i, j :: 0 <= i < j < |s| ==> s[i] != s[j]
  }

  /** ASCII whitespace: tab, line feed, form feed, carriage return and space. */
  predicate IsAsciiWhitespace(c: char) {
    c == '\t' || c == '\n' || c == '\U{000C}' || c == '\r' || c == ' '
  }

  predicate IsDigit(c: char) {
    '0' <= c <= '9'
  }

  /** The value of one decimal digit. */
  function DigitValue(c: char): (d: nat)
    requires IsDigit(c)
    ensures d < 10 && (d == 0 <==> c == '0')
  {
    c as int - '0' as int
  }

  /** `s` without its leading ASCII whitespace. */
  function SkipWhitespace(s: string): (r: string)
    ensures |r| <= |s|
    ensures |r| > 0 ==> !IsAsciiWhitespace(r[0])
  {
    if |s| > 0 && IsAsciiWhitespace(s[0]) then SkipWhitespace(s[1..]) else s
  }

  /** The length of the run of digits that `s` starts with. */
  function DigitRun(s: string): (n: nat)
    ensures n <= |s|
  {
    if |s| > 0 && IsDigit(s[0]) then 1 + DigitRun(s[1..]) else 0
  }

  /** The value of the first `n` characters of `s`, all of them digits. */
  function DigitsValue(s: string, n: nat): (v: nat)
    requires n <= DigitRun(s)
  {
    if n == 0 then 0 else DigitValue(s[0]) * Pow10(n - 1) + DigitsValue(s[1..], n - 1)
  }

  function Pow10(k: nat): (p: nat)
    ensures p >= 1
  {
    if k == 0 then 1 else 10 * Pow10(k - 1)
  }

  /**
   The rules for parsing integers of the HTML Living Standard, which is how a
   browser reads `tabindex`: skip leading ASCII whitespace, read an optional
   "-" or "+", then at least one digit; whatever follows the digits is
   ignored. `None` is a parse error.
   */
  function ParseInteger(s: string): (r: Option<int>)
  {
    var u := SkipWhitespace(s);
    var negative := |u| > 0 && u[0] == '-';
    var body := if |u| > 0 && (u[0] == '-' || u[0] == '+') then u[1..] else u;
    var n := DigitRun(body);
    if n == 0 then None
    else
      var v: int := DigitsValue(body, n);
      Some(if negative then -v else v)
  }

  /** How browsers read some unusual `tabindex` values. */
  lemma TabIndexParsingExamples()
    ensures ParseInteger(" -1") == Some(-1)
    ensures ParseInteger("-0") == Some(0)
    ensures ParseInteger("+3") == Some(3)
    ensures ParseInteger("2x") == Some(2)
    ensures ParseInteger("") == None
    ensures ParseInteger("abc") == None
    ensures ParseInteger("- 1") == None
  {
    assert " -1"[1..] == "-1";
    assert IsAsciiWhitespace(' ') && !IsAsciiWhitespace('-');
    assert SkipWhitespace(" -1") == "-1";
    assert "-1"[1..] == "1";
    assert DigitRun("1") == 1;
    assert DigitsValue("1", 1) == 1;
  }

  /** Leading ASCII whitespace does not change the value read. */
  lemma LeadingWhitespaceIgnored(c: char, s: string)
    requires IsAsciiWhitespace(c)
    ensures ParseInteger([c] + s) == ParseInteger(s)
  {
    assert ([c] + s)[1..] == s;
  }

  /** A number written with digits reads as itself, negated after "-" and unchanged after "+". */
  lemma SignIsRead(s: string)
    requires |s| > 0 && IsDigit(s[0])
    ensures ParseInteger(s).Some? && ParseInteger(s).value >= 0
    ensures ParseInteger("-" + s) == Some(-ParseInteger(s).value)
    ensures ParseInteger("+" + s) == ParseInteger(s)
  {
    assert ("-" + s)[1..] == s;
    assert ("+" + s)[1..] == s;
  }

}
=== FILE: focus_scan.dfy ===
/**
 The focusable-element scan shared by both copies of `useFocusTrap`: a
 selector list joined with "," and handed to `querySelectorAll`, which
 returns every matching descendant of the root once, in document order.
 */
module FocusScan {
  import opened Wrappers
  import opened Dom
  import opened Sequences

  /** The two shapes of selector the source uses. */
  datatype Selector =
    | NotDisabled(tag: Tag, needsHref: bool)  // `button:not([disabled])`, `a[href]:not([disabled])`
    | TabIndexNot(excluded: string)           // `[tabindex]:not([tabindex='-1'])`

  predicate SelectorMatches(s: Selector, e: Element) {
    match s
    case NotDisabled(tag, needsHref) => e.tag == tag && (!needsHref || e.hasHref) && !e.disabled
    case TabIndexNot(excluded) => e.tabIndex.Some? && e.tabIndex.value != excluded
  }

  /** The comma-joined selector group, tried member by member. */
  predicate MatchesAny(sels: seq<Selector>, e: Element)
    decreases |sels|
  {
    |sels| > 0 && (SelectorMatches(sels[0], e) || MatchesAny(sels[1..], e))
  }

  /** An element matches the group exactly when it matches some member. */
  lemma {:induction false} MatchesSomeMember(sels: seq<Selector>, e: Element)
    ensures MatchesAny(sels, e) <==> exists s :: s in sels && SelectorMatches(s, e)
    decreases |sels|
  {
    if |sels| > 0 {
      MatchesSomeMember(sels[1..], e);
      assert forall s :: s in sels <==> s == sels[0] || s in sels[1..];
    }
  }

  predicate IsFormControl(t: Tag) {
    t == ButtonTag || t == TextArea || t == Input || t == Select
  }

  /**
   The focusability rule in words: a link with an href or a form control,
   either without the `disabled` attribute; or any element whose `tabindex`
   is present and not literally "-1", whether disabled or not.
   */
  predicate Focusable(e: Element) {
    || (e.tag == Anchor && e.hasHref && !e.disabled)
    || (IsFormControl(e.tag) && !e.disabled)
    || (e.tabIndex.Some? && e.tabIndex.value != "-1")
  }

  /** An element the browser focuses without a `tabindex`: a link with an href, or a form control. */
  predicate NativelyFocusable(e: Element) {
    (e.tag == Anchor && e.hasHref) || IsFormControl(e.tag)
  }

  /**
   Whether the browser's own Tab navigation visits an element. A form
   control carrying the `disabled` attribute never does, whatever its
   `tabindex`; on a link the attribute has no effect. Without a `tabindex`
   only a natively focusable element is visited. A `tabindex` is read as an
   HTML integer: a negative value takes the element out of the tab order,
   and a value that does not parse is ignored.
   */
  predicate Tabbable(e: Element) {
    && !(IsFormControl(e.tag) && e.disabled)
    && match e.tabIndex
       case None => NativelyFocusable(e)
       case Some(t) =>
         match ParseInteger(t)
         case None => NativelyFocusable(e)
         case Some(v) => v >= 0
  }

  /**
   Where the selector rule and the tab order part: a `tabindex` of " -1" is
   selected but skipped by Tab, "-0" is selected and visited, and an empty
   `tabindex` on a `div` is selected and skipped, while on a button it is
   ignored. A link with `href` and `disabled` is visited but not selected.
   */
  lemma TabIndexReadAsInteger(id: nat)
    ensures var div := Element(id, OtherTag("div"), false, false, Some(" -1"));
      Focusable(div) && !Tabbable(div)
    ensures var div := Element(id, OtherTag("div"), false, false, Some("-0"));
      Focusable(div) && Tabbable(div)
    ensures var div := Element(id, OtherTag("div"), false, false, Some(""));
      Focusable(div) && !Tabbable(div)
    ensures var button := Element(id, ButtonTag, false, false, Some(""));
      Focusable(button) && Tabbable(button)
    ensures var link := Element(id, Anchor, true, true, None);
      !Focusable(link) && Tabbable(link)
  {
    TabIndexParsingExamples();
  }

  /**
   A selector list with exactly the entries `a[href]`, `button`, `textarea`,
   `input`, `select` (each `:not([disabled])`) and `[tabindex]:not([tabindex='-1'])`,
   in that order, selects exactly the focusable elements.
   */
  lemma SelectorListMeansFocusable(sels: seq<Selector>, e: Element)
    requires sels == [NotDisabled(Anchor, true), NotDisabled(ButtonTag, false), NotDisabled(TextArea, false),
                      NotDisabled(Input, false), NotDisabled(Select, false), TabIndexNot("-1")]
    ensures MatchesAny(sels, e) <==> Focusable(e)
  {
    MatchesSomeMember(sels, e);
    if Focusable(e) {
      var k := if e.tag == Anchor && e.hasHref && !e.disabled then 0
        else if e.tag == ButtonTag && !e.disabled then 1
        else if e.tag == TextArea && !e.disabled then 2
        else if e.tag == Input && !e.disabled then 3
        else if e.tag == Select && !e.disabled then 4
        else 5;
      assert sels[k] in sels && SelectorMatches(sels[k], e);
    }
    if MatchesAny(sels, e) {
      var s :| s in sels && SelectorMatches(s, e);
      assert s == sels[0] || s == sels[1] || s == sels[2] || s == sels[3] || s == sels[4] || s == sels[5];
    }
  }

  /** `querySelectorAll(sels.join(","))` over the root's descendants `nodes`. */
  function Scan(sels: seq<Selector>, nodes: seq<Element>): (r: seq<Element>)
    ensures forall e :: e in r <==> e in nodes && MatchesAny(sels, e)
    ensures IsSubsequence(r, nodes)
    ensures Distinct(nodes) ==> Distinct(r)
  {
    if |nodes| == 0 then []
    else if MatchesAny(sels, nodes[0]) then [nodes[0]] + Scan(sels, nodes[1..])
    else Scan(sels, nodes[1..])
  }

  /** The root's descendants that the browser's Tab navigation visits, in document order. */
  function TabOrder(nodes: seq<Element>): (r: seq<Element>)
    ensures forall e :: e in r <==> e in nodes && Tabbable(e)
    ensures IsSubsequence(r, nodes)
  {
    if |nodes| == 0 then []
    else if Tabbable(nodes[0]) then [nodes[0]] + TabOrder(nodes[1..])
    else TabOrder(nodes[1..])
  }

  /** With no matching node the scan is empty: an empty result is "no focus target", not an error. */
  lemma {:induction false} ScanOfNoMatchIsEmpty(sels: seq<Selector>, nodes: seq<Element>)
    requires forall j :: 0 <= j < |nodes| ==> !MatchesAny(sels, nodes[j])
    ensures Scan(sels, nodes) == []
  {
    if |nodes| > 0 {
      ScanOfNoMatchIsEmpty(sels, nodes[1..]);
    }
  }

  /** The first scanned element is the first matching node: non-matching ones before it are skipped. */
  lemma {:induction false} ScanHeadIsFirstMatch(sels: seq<Selector>, nodes: seq<Element>, i: nat)
    requires i < |nodes| && MatchesAny(sels, nodes[i])
    requires forall j :: 0 <= j < i ==> !MatchesAny(sels, nodes[j])
    ensures |Scan(sels, nodes)| > 0 && Scan(sels, nodes)[0] == nodes[i]
  {
    if i > 0 {
      ScanHeadIsFirstMatch(sels, nodes[1..], i - 1);
    }
  }

  /** The last scanned element is the last matching node. */
  lemma ScanLastIsLastMatch(sels: seq<Selector>, nodes: seq<Element>, i: nat)
    requires i < |nodes| && MatchesAny(sels, nodes[i])
    requires forall j :: i < j < |nodes| ==> !MatchesAny(sels, nodes[j])
    ensures |Scan(sels, nodes)| > 0 && Scan(sels, nodes)[|Scan(sels, nodes)| - 1] == nodes[i]
  {
    var r := Scan(sels, nodes);
    assert |r| > 0 by {
      assert nodes[i] in r;
    }
    ScanLastPosition(sels, nodes);
    var k :| 0 <= k < |nodes| && nodes[k] == r[|r| - 1]
      && forall j :: k < j < |nodes| ==> !MatchesAny(sels, nodes[j]);
    assert MatchesAny(sels, nodes[k]) by {
      ScanEndsAreNodes(sels, nodes);
    }
    assert k <= i;
  }

  /**
   A non-empty scan starts at some position of the node list with no
   matching node before it.
   */
  lemma {:induction false} ScanHeadPosition(sels: seq<Selector>, nodes: seq<Element>)
    requires |Scan(sels, nodes)| > 0
    ensures exists k ::
      && 0 <= k < |nodes| && nodes[k] == Scan(sels, nodes)[0]
      && forall j :: 0 <= j < k ==> !MatchesAny(sels, nodes[j])
  {
    if MatchesAny(sels, nodes[0]) {
      assert nodes[0] == Scan(sels, nodes)[0];
    } else {
      var tail := nodes[1..];
      assert Scan(sels, nodes) == Scan(sels, tail);
      ScanHeadPosition(sels, tail);
      var k :| 0 <= k < |tail| && tail[k] == Scan(sels, tail)[0]
        && forall j :: 0 <= j < k ==> !MatchesAny(sels, tail[j]);
      forall j | 0 <= j < k + 1
        ensures !MatchesAny(sels, nodes[j])
      {
        if j > 0 {
          assert nodes[j] == tail[j - 1];
        }
      }
      assert nodes[k + 1] == tail[k];
    }
  }

  /**
   A non-empty scan ends at some position of the node list with no
   matching node after it.
   */
  lemma {:induction false} ScanLastPosition(sels: seq<Selector>, nodes: seq<Element>)
    requires |Scan(sels, nodes)| > 0
    ensures var r := Scan(sels, nodes);
      exists k ::
        && 0 <= k < |nodes| && nodes[k] == r[|r| - 1]
        && forall j :: k < j < |nodes| ==> !MatchesAny(sels, nodes[j])
  {
    var r := Scan(sels, nodes);
    var tail := nodes[1..];
    var rest := Scan(sels, tail);
    assert r == (if MatchesAny(sels, nodes[0]) then [nodes[0]] + rest else rest);
    if |rest| > 0 {
      assert r[|r| - 1] == rest[|rest| - 1];
      ScanLastPosition(sels, tail);
      var k :| 0 <= k < |tail| && tail[k] == rest[|rest| - 1]
        && forall j :: k < j < |tail| ==> !MatchesAny(sels, tail[j]);
      forall j | k + 1 < j < |nodes|
        ensures !MatchesAny(sels, nodes[j])
      {
        assert nodes[j] == tail[j - 1];
      }
      assert nodes[k + 1] == tail[k];
    } else {
      assert r == [nodes[0]];
      forall j | 0 < j < |nodes|
        ensures !MatchesAny(sels, nodes[j])
      {
        assert nodes[j] == tail[j - 1];
        assert tail[j - 1] in tail;
      }
    }
  }

  /** Both ends of a non-empty scan are matching nodes. */
  lemma ScanEndsAreNodes(sels: seq<Selector>, nodes: seq<Element>)
    requires |Scan(sels, nodes)| > 0
    ensures var r := Scan(sels, nodes);
      && r[0] in nodes && MatchesAny(sels, r[0])
      && r[|r| - 1] in nodes && MatchesAny(sels, r[|r| - 1])
  {
    var r := Scan(sels, nodes);
    assert r[0] in r && r[|r| - 1] in r;
  }

}

=== FILE: focus_trap.dfy ===
/**
 `useFocusTrap` from src/hooks/useFocusTrap: a scan effect that records the
 first and last focusable descendants of the root, `firstFocusable`, and the
 keydown handler that wraps Tab and Shift+Tab at the two ends of the set.
 */
module FocusTrap {
  import opened Wrappers
  import opened Dom
  import opened FocusScan

  /** `focusableSelectors` of this copy, in source order. */
  const HookSelectors: seq<Selector> := [
    NotDisabled(Anchor, true),
    NotDisabled(ButtonTag, false),
    NotDisabled(TextArea, false),
    NotDisabled(Input, false),
    NotDisabled(Select, false),
    TabIndexNot("-1")
  ]

  /** The selector list says exactly what the focusability rule says. */
  lemma HookSelectorsMeanFocusable(e: Element)
    ensures MatchesAny(HookSelectors, e) <==> Focusable(e)
  {
    SelectorListMeansFocusable(HookSelectors, e);
  }

  /**
   The `{first, last}` object the effect stores. An empty scan still stores
   an object, whose two fields are `undefined`: that is `NoFocusable`.
   */
  datatype Boundaries = NoFocusable | Bounds(first: Element, last: Element)

  /**
   The hook's state: `None` while `useState` is still unset, which is the
   case until the effect first runs with a non-null root.
   */
  type TrapState = Option<Boundaries>

  /** The object built from a scan result. */
  function BoundariesOf(found: seq<Element>): (b: Boundaries)
    ensures b.NoFocusable? <==> |found| == 0
    ensures b.Bounds? ==> b.first == found[0] && b.last == found[|found| - 1]
  {
    if |found| == 0 then NoFocusable else Bounds(found[0], found[|found| - 1])
  }

  /**
   The scan effect, run with the root's descendants in document order (or
   `None` for a null root). A null root returns early and keeps whatever
   state was there before.
   */
  function ScanEffect(state: TrapState, root: Option<seq<Element>>): (s: TrapState)
    ensures root.None? ==> s == state
    ensures root.Some? ==> s.Some?
    ensures root.Some? ==> (s.value.Bounds? <==> exists e :: e in root.value && Focusable(e))
    ensures root.Some? && s.value.Bounds? ==> Focusable(s.value.first) && s.value.first in root.value
    ensures root.Some? && s.value.Bounds? ==> Focusable(s.value.last) && s.value.last in root.value
  {
    match root
    case None => state
    case Some(nodes) =>
      var found := Scan(HookSelectors, nodes);
      assert forall e :: e in found <==> e in nodes && Focusable(e) by {
        forall e { HookSelectorsMeanFocusable(e); }
      }
      assert |found| > 0 ==> found[0] in found && found[|found| - 1] in found;
      Some(BoundariesOf(found))
  }

  /** `focusable?.first`, which the hook also returns as `firstFocusable`. */
  function First(state: TrapState): (e: Option<Element>)
    ensures e.Some? <==> state.Some? && state.value.Bounds?
  {
    match state
    case Some(Bounds(first, _)) => Some(first)
    case _ => None
  }

  /** `focusable?.last`. */
  function Last(state: TrapState): (e: Option<Element>)
    ensures e.Some? <==> state.Some? && state.value.Bounds?
  {
    match state
    case Some(Bounds(_, last)) => Some(last)
    case _ => None
  }

  /**
   `firstFocusable` after a scan is the first focusable descendant in
   document order; everything before it, disabled buttons included, is skipped.
   */
  lemma FirstFocusableIsFirstInDocumentOrder(state: TrapState, nodes: seq<Element>, i: nat)
    requires i < |nodes| && Focusable(nodes[i])
    requires forall j :: 0 <= j < i ==> !Focusable(nodes[j])
    ensures First(ScanEffect(state, Some(nodes))) == Some(nodes[i])
  {
    forall e { HookSelectorsMeanFocusable(e); }
    ScanHeadIsFirstMatch(HookSelectors, nodes, i);
  }

  /** The stored `last` is the last focusable descendant in document order. */
  lemma LastIsLastInDocumentOrder(state: TrapState, nodes: seq<Element>, i: nat)
    requires i < |nodes| && Focusable(nodes[i])
    requires forall j :: i < j < |nodes| ==> !Focusable(nodes[j])
    ensures Last(ScanEffect(state, Some(nodes))) == Some(nodes[i])
  {
    forall e { HookSelectorsMeanFocusable(e); }
    ScanLastIsLastMatch(HookSelectors, nodes, i);
  }

  /** A keydown event as the handler reads it. */
  datatype KeyEvent = KeyEvent(key: string, shiftKey: bool)

  /** What the handler does: the element it focuses, if any, and whether it cancels the default. */
  datatype TabDecision = TabDecision(focus: Option<Element>, preventDefault: bool)

  /** The handler returns without touching focus or the event. */
  const Pass := TabDecision(None, false)

  /**
   `document.activeElement === target` where `active` is `None` for a null
   active element and `target` is `None` for `undefined`: the two never
   compare equal, so only a real element can match.
   */
  predicate IsActive(active: Option<Element>, target: Option<Element>) {
    active.Some? && target.Some? && active.value == target.value
  }

  /** `handleTab`: interception happens only at the two boundaries, and only in the matching direction. */
  function HandleTab(state: TrapState, ev: KeyEvent, active: Option<Element>): (d: TabDecision)
    ensures ev.key != "Tab" ==> d == Pass
    ensures d.preventDefault <==> d.focus.Some?
    ensures d.preventDefault <==>
      && ev.key == "Tab" && state.Some? && state.value.Bounds?
      && active == Some(if ev.shiftKey then state.value.first else state.value.last)
    ensures d.preventDefault ==>
      d.focus == Some(if ev.shiftKey then state.value.last else state.value.first)
  {
    if ev.key != "Tab" then Pass
    else if ev.shiftKey then
      if IsActive(active, First(state)) then TabDecision(Last(state), true) else Pass
    else
      if IsActive(active, Last(state)) then TabDecision(First(state), true) else Pass
  }

  /** Focus on an element outside the scanned set (or no focus at all) is never intercepted. */
  lemma FocusOutsideRootPassesThrough(state: TrapState, nodes: seq<Element>, ev: KeyEvent, active: Option<Element>)
    requires active.Some? ==> !(active.value in nodes && Focusable(active.value))
    ensures HandleTab(ScanEffect(state, Some(nodes)), ev, active) == Pass
  {
  }

  /** A null root and an empty set both leave the handler inert. */
  lemma NothingToTrapPassesThrough(state: TrapState, ev: KeyEvent, active: Option<Element>)
    requires state.None? || state.value.NoFocusable?
    ensures HandleTab(state, ev, active) == Pass
  {
  }

  /** With one focusable element both directions keep focus on it and cancel the default. */
  lemma SingleElementHoldsFocus(state: TrapState, nodes: seq<Element>, e: Element, shift: bool)
    requires Scan(HookSelectors, nodes) == [e]
    ensures HandleTab(ScanEffect(state, Some(nodes)), KeyEvent("Tab", shift), Some(e)) == TabDecision(Some(e), true)
  {
  }

  /**
   The browser's own Tab move from member `i` of `members`, the root's
   descendants in the browser's tab order: the neighbour, or `None` when
   focus would leave the root. This assumes the root's tabbable descendants
   are consecutive in the page's tab order (no positive `tabindex`).
   */
  function DefaultMove(members: seq<Element>, i: nat, backward: bool): (m: Option<Element>)
    requires i < |members|
    ensures m.Some? ==> m.value in members
  {
    if backward then (if i > 0 then Some(members[i - 1]) else None)
    else (if i + 1 < |members| then Some(members[i + 1]) else None)
  }

  /**
   Where focus lands after Tab (or Shift+Tab) from member `i` of the tab
   order `members`: the handler's target if it cancels, else the default.
   */
  function FocusAfterTab(state: TrapState, members: seq<Element>, i: nat, backward: bool): (f: Option<Element>)
    requires i < |members|
    ensures f.Some? ==> f.value in members || Some(f.value) == First(state) || Some(f.value) == Last(state)
  {
    var d := HandleTab(state, KeyEvent("Tab", backward), Some(members[i]));
    if d.preventDefault then d.focus else DefaultMove(members, i, backward)
  }

  /** The member after (or before) member `i` of an `n`-member set, wrapping at both ends. */
  function CyclicNeighbour(i: nat, n: nat, backward: bool): (k: nat)
    requires i < n
    ensures k < n
  {
    if backward then (if i == 0 then n - 1 else i - 1)
    else (if i == n - 1 then 0 else i + 1)
  }

  /** Cyclic wrap over any set of distinct members whose ends are the stored boundaries. */
  lemma WrapAtBoundaries(members: seq<Element>, i: nat, backward: bool)
    requires Distinct(members)
    requires i < |members|
    ensures FocusAfterTab(Some(BoundariesOf(members)), members, i, backward)
      == Some(members[CyclicNeighbour(i, |members|, backward)])
  {
    var n := |members|;
    var d := HandleTab(Some(BoundariesOf(members)), KeyEvent("Tab", backward), Some(members[i]));
    if backward {
      if i == 0 {
        assert d == TabDecision(Some(members[n - 1]), true);
      } else {
        assert members[i] != members[0];
        assert d == Pass;
      }
    } else {
      if i == n - 1 {
        assert d == TabDecision(Some(members[0]), true);
      } else {
        assert members[i] != members[n - 1];
        assert d == Pass;
      }
    }
  }

  /**
   Cyclic wrap: taking the scanned set as the tab order, the handler makes
   Tab walk it forwards and Shift+Tab walk it backwards, wrapping at both
   ends. `TabbableRootIsTrapped` says when the scanned set is the tab order.
   */
  lemma TabCyclesThroughSet(state: TrapState, nodes: seq<Element>, i: nat, backward: bool)
    requires Distinct(nodes)
    requires i < |Scan(HookSelectors, nodes)|
    ensures var members := Scan(HookSelectors, nodes);
      FocusAfterTab(ScanEffect(state, Some(nodes)), members, i, backward)
        == Some(members[CyclicNeighbour(i, |members|, backward)])
  {
    WrapAtBoundaries(Scan(HookSelectors, nodes), i, backward);
  }

  /**
   When the descendants the selectors pick are exactly those the browser
   tabs to, the scanned set is exactly the tab order.
   */
  lemma {:induction false} ScanIsTabOrderWhenAllTabbable(nodes: seq<Element>)
    requires forall e :: e in nodes ==> (Focusable(e) <==> Tabbable(e))
    ensures Scan(HookSelectors, nodes) == TabOrder(nodes)
  {
    if |nodes| > 0 {
      HookSelectorsMeanFocusable(nodes[0]);
      assert forall e :: e in nodes[1..] ==> e in nodes;
      ScanIsTabOrderWhenAllTabbable(nodes[1..]);
    }
  }

  /**
   The trap holds in the browser's own tab order when the selectors pick
   exactly the descendants the browser tabs to: Tab and Shift+Tab from any
   tabbable descendant land on its cyclic neighbour, so focus never leaves
   the root.
   */
  lemma TabbableRootIsTrapped(state: TrapState, nodes: seq<Element>, i: nat, backward: bool)
    requires Distinct(nodes)
    requires forall e :: e in nodes ==> (Focusable(e) <==> Tabbable(e))
    requires i < |TabOrder(nodes)|
    ensures var order := TabOrder(nodes);
      FocusAfterTab(ScanEffect(state, Some(nodes)), order, i, backward)
        == Some(order[CyclicNeighbour(i, |order|, backward)])
  {
    ScanIsTabOrderWhenAllTabbable(nodes);
    TabCyclesThroughSet(state, nodes, i, backward);
  }

  /**
   The trap leaks when an end of the scanned set is not tabbable, such as an
   element with `tabindex="-2"` or a disabled button with a `tabindex`: from
   the last (for Shift+Tab, the first) descendant in the tab order the
   handler passes, and the browser moves focus out of the root.
   */
  lemma TrapLeaksPastUntabbableEnd(state: TrapState, nodes: seq<Element>, backward: bool)
    requires |Scan(HookSelectors, nodes)| > 0
    requires var members := Scan(HookSelectors, nodes);
      !Tabbable(if backward then members[0] else members[|members| - 1])
    requires |TabOrder(nodes)| > 0
    ensures var order := TabOrder(nodes);
      var j := if backward then 0 else |order| - 1;
      && HandleTab(ScanEffect(state, Some(nodes)), KeyEvent("Tab", backward), Some(order[j])) == Pass
      && FocusAfterTab(ScanEffect(state, Some(nodes)), order, j, backward) == None
  {
    var order := TabOrder(nodes);
    var j := if backward then 0 else |order| - 1;
    assert order[j] in order;
  }

  /**
   A button followed by a `div` with an empty `tabindex`: the scan ends at
   the `div`, which Tab skips, so Tab from the button leaves the root.
   */
  lemma EmptyTabIndexAtEndLeaks(state: TrapState, buttonId: nat, divId: nat)
    requires buttonId != divId
    ensures var button := Element(buttonId, ButtonTag, false, false, None);
      var nodes := [button, Element(divId, OtherTag("div"), false, false, Some(""))];
      && TabOrder(nodes) == [button]
      && HandleTab(ScanEffect(state, Some(nodes)), KeyEvent("Tab", false), Some(button)) == Pass
      && FocusAfterTab(ScanEffect(state, Some(nodes)), TabOrder(nodes), 0, false) == None
  {
    var button := Element(buttonId, ButtonTag, false, false, None);
    var div := Element(divId, OtherTag("div"), false, false, Some(""));
    var nodes := [button, div];
    TabIndexReadAsInteger(divId);
    HookSelectorsMeanFocusable(button);
    HookSelectorsMeanFocusable(div);
    assert nodes[1..] == [div];
    assert Scan(HookSelectors, nodes) == [button, div];
    assert TabOrder(nodes) == [button];
    TrapLeaksPastUntabbableEnd(state, nodes, false);
  }
  /**
   A link with `href` and `disabled` between two buttons: the browser tabs
   to it, the selectors skip it, so the scanned set is not the tab order.
   */
  lemma DisabledLinkIsTabbedButNotScanned(firstId: nat, linkId: nat, lastId: nat)
    ensures var b1 := Element(firstId, ButtonTag, false, false, None);
      var b2 := Element(lastId, ButtonTag, false, false, None);
      var nodes := [b1, Element(linkId, Anchor, true, true, None), b2];
      && TabOrder(nodes) == nodes
      && Scan(HookSelectors, nodes) == [b1, b2]
  {
    var b1 := Element(firstId, ButtonTag, false, false, None);
    var link := Element(linkId, Anchor, true, true, None);
    var b2 := Element(lastId, ButtonTag, false, false, None);
    var nodes := [b1, link, b2];
    HookSelectorsMeanFocusable(b1);
    HookSelectorsMeanFocusable(link);
    HookSelectorsMeanFocusable(b2);
    assert nodes[1..] == [link, b2];
    assert [link, b2][1..] == [b2];
    assert [b2][1..] == [];
    assert Tabbable(b1) && Tabbable(link) && Tabbable(b2);
    assert TabOrder([b2]) == [b2];
    assert TabOrder([link, b2]) == [link, b2];
    assert Scan(HookSelectors, [b2]) == [b2];
    assert Scan(HookSelectors, [link, b2]) == [b2];
  }
}
=== FILE: footer.dfy ===
/**
 `ModalFooter` of src/ui/Modal/Footer/Footer.tsx: an action button, then a
 dismiss button, each present only when its props are given. The caller's
 props are spread first and the footer's `variant` and composed `onClick`
 are written after them, so the footer's own values always win.
 */
module Footer {
  import opened Wrappers
  import opened Props

  /** This footer spreads the caller's props before its own. */
  const Order := SpreadFirst

  /**
   Clicking a rendered control runs the caller's `onClick` when it is a
   function, then `onClose`, exactly once; a missing or `undefined` caller
   `onClick` is skipped and `onClose` still runs. Clicking a control that
   is not rendered does nothing. The caller's props have the declared
   `Omit<ButtonProps, "variant">` type: an `onClick` of any other kind would
   make the composed handler throw before `onClose`.
   */
  lemma ClickRunsCallerThenClose(action: Option<ButtonProps>, dismiss: Option<ButtonProps>, c: Control)
    requires PropsOf(action, dismiss, c).Some? ==> CallerProps(PropsOf(action, dismiss, c).value)
    ensures var effects := ClickControl(Render(Order, action, dismiss), c);
      match PropsOf(action, dismiss, c)
      case None => effects == []
      case Some(p) =>
        && effects == (if CallerOnClick(p).Some? then [RunCallback(CallerOnClick(p).value)] else []) + [RunClose]
        && CloseCount(effects) == 1
        && effects[0] == (if OnClickKey in p && p[OnClickKey] != Undefined
                          then RunCallback(p[OnClickKey].handler.id) else RunClose)
  {
    ClickHitsOwnButton(Order, action, dismiss, c);
    if PropsOf(action, dismiss, c).Some? {
      ClickClosesAtMostOnce(ButtonFor(Order, PropsOf(action, dismiss, c).value, c));
    }
  }

  /** Caller props cannot change a control's variant: "action" for the action button, "default" for dismiss. */
  lemma VariantIsForced(action: Option<ButtonProps>, dismiss: Option<ButtonProps>, i: nat)
    requires i < |Render(Order, action, dismiss)|
    ensures var b := Render(Order, action, dismiss)[i];
      b.props[VariantKey] == VariantValue(ControlVariant(b.control))
  {
  }

}

=== FILE: legacy_focus_trap.dfy ===
/**
 The older `useFocusTrap` kept next to the modal in src/ui/Modal: the same
 selector list and scan, no `firstFocusable`, and the forward case written
 as an `else if`.
 */
module LegacyFocusTrap {
  import opened Wrappers
  import opened Dom
  import opened FocusScan
  import FocusTrap

  /** `focusableSelectors` of this copy; only the quote style differs in the source. */
  const ModalSelectors: seq<Selector> := [
    NotDisabled(Anchor, true),
    NotDisabled(ButtonTag, false),
    NotDisabled(TextArea, false),
    NotDisabled(Input, false),
    NotDisabled(Select, false),
    TabIndexNot("-1")
  ]

  /** The selector list of this copy says exactly what the focusability rule says. */
  lemma ModalSelectorsMeanFocusable(e: Element)
    ensures MatchesAny(ModalSelectors, e) <==> Focusable(e)
  {
    SelectorListMeansFocusable(ModalSelectors, e);
  }

  /**
   The scan effect of this copy; a null root keeps the previous state.
   Otherwise boundaries exist iff some descendant is focusable, and they are
   the first and the last focusable descendants in document order.
   */
  function ScanEffect(state: FocusTrap.TrapState, root: Option<seq<Element>>): (s: FocusTrap.TrapState)
    ensures root.None? ==> s == state
    ensures root.Some? ==> s.Some? && (s.value.NoFocusable? <==> |Scan(ModalSelectors, root.value)| == 0)
    ensures root.Some? && s.value.Bounds? ==>
      var found := Scan(ModalSelectors, root.value);
      s.value.first == found[0] && s.value.last == found[|found| - 1]
    ensures root.Some? ==> (s.value.Bounds? <==> exists e :: e in root.value && Focusable(e))
    ensures root.Some? && s.value.Bounds? ==>
      && Focusable(s.value.first) && s.value.first in root.value
      && Focusable(s.value.last) && s.value.last in root.value
    ensures root.Some? && s.value.Bounds? ==> exists k ::
      && 0 <= k < |root.value| && root.value[k] == s.value.first
      && forall j :: 0 <= j < k ==> !Focusable(root.value[j])
    ensures root.Some? && s.value.Bounds? ==> exists k ::
      && 0 <= k < |root.value| && root.value[k] == s.value.last
      && forall j :: k < j < |root.value| ==> !Focusable(root.value[j])
  {
    match root
    case None => state
    case Some(nodes) => Some(ModalBoundaries(nodes))
  }

  /** The `{first, last}` object this copy stores after scanning a mounted root. */
  function ModalBoundaries(nodes: seq<Element>): (b: FocusTrap.Boundaries)
    ensures b.NoFocusable? <==> |Scan(ModalSelectors, nodes)| == 0
    ensures b.Bounds? ==>
      var found := Scan(ModalSelectors, nodes);
      b.first == found[0] && b.last == found[|found| - 1]
    ensures b.Bounds? <==> exists e :: e in nodes && Focusable(e)
    ensures b.Bounds? ==>
      && Focusable(b.first) && b.first in nodes
      && Focusable(b.last) && b.last in nodes
    ensures b.Bounds? ==> exists k ::
      && 0 <= k < |nodes| && nodes[k] == b.first
      && forall j :: 0 <= j < k ==> !Focusable(nodes[j])
    ensures b.Bounds? ==> exists k ::
      && 0 <= k < |nodes| && nodes[k] == b.last
      && forall j :: k < j < |nodes| ==> !Focusable(nodes[j])
  {
    ModalScanNonEmpty(nodes);
    if |Scan(ModalSelectors, nodes)| > 0 then
      ModalScanEndsFocusable(nodes);
      ModalScanEndsPosition(nodes);
      FocusTrap.BoundariesOf(Scan(ModalSelectors, nodes))
    else
      FocusTrap.NoFocusable
  }

  /** The scan with this copy's selectors finds something iff some descendant is focusable. */
  lemma ModalScanNonEmpty(nodes: seq<Element>)
    ensures |Scan(ModalSelectors, nodes)| > 0 <==> exists e :: e in nodes && Focusable(e)
  {
    var found := Scan(ModalSelectors, nodes);
    if exists e :: e in nodes && Focusable(e) {
      var e :| e in nodes && Focusable(e);
      ModalSelectorsMeanFocusable(e);
      assert e in found;
    }
    if |found| > 0 {
      ScanEndsAreNodes(ModalSelectors, nodes);
      ModalSelectorsMeanFocusable(found[0]);
    }
  }

  /** Both ends of a non-empty scan are focusable descendants. */
  lemma ModalScanEndsFocusable(nodes: seq<Element>)
    requires |Scan(ModalSelectors, nodes)| > 0
    ensures var found := Scan(ModalSelectors, nodes);
      && Focusable(found[0]) && found[0] in nodes
      && Focusable(found[|found| - 1]) && found[|found| - 1] in nodes
  {
    var found := Scan(ModalSelectors, nodes);
    ScanEndsAreNodes(ModalSelectors, nodes);
    ModalSelectorsMeanFocusable(found[0]);
    ModalSelectorsMeanFocusable(found[|found| - 1]);
  }

  /**
   The scan's first element sits at a position with no focusable node before
   it, and its last at one with no focusable node after it.
   */
  lemma ModalScanEndsPosition(nodes: seq<Element>)
    requires |Scan(ModalSelectors, nodes)| > 0
    ensures var found := Scan(ModalSelectors, nodes);
      exists k ::
        && 0 <= k < |nodes| && nodes[k] == found[0]
        && forall j :: 0 <= j < k ==> !Focusable(nodes[j])
    ensures var found := Scan(ModalSelectors, nodes);
      exists k ::
        && 0 <= k < |nodes| && nodes[k] == found[|found| - 1]
        && forall j :: k < j < |nodes| ==> !Focusable(nodes[j])
  {
    forall e { ModalSelectorsMeanFocusable(e); }
    ScanHeadPosition(ModalSelectors, nodes);
    ScanLastPosition(ModalSelectors, nodes);
  }

  /** This copy's scan stores the same boundaries as the hooks copy, for every root. */
  lemma ScanEffectMatchesHookCopy(state: FocusTrap.TrapState, root: Option<seq<Element>>)
    ensures ScanEffect(state, root) == FocusTrap.ScanEffect(state, root)
  {
  }

  /** `handleTab` of this copy, in its `if … else if …` shape. */
  function HandleTab(state: FocusTrap.TrapState, ev: FocusTrap.KeyEvent, active: Option<Element>): (d: FocusTrap.TabDecision)
    ensures ev.key != "Tab" ==> d == FocusTrap.Pass
    ensures d.preventDefault <==> d.focus.Some?
    ensures ev.shiftKey && d.preventDefault ==>
      FocusTrap.IsActive(active, FocusTrap.First(state)) && d.focus == FocusTrap.Last(state)
    ensures !ev.shiftKey && d.preventDefault ==>
      FocusTrap.IsActive(active, FocusTrap.Last(state)) && d.focus == FocusTrap.First(state)
    ensures ev.key == "Tab" && state.Some? && state.value.Bounds? ==>
      (d.preventDefault <==> active == Some(if ev.shiftKey then state.value.first else state.value.last))
  {
    if ev.key != "Tab" then FocusTrap.Pass
    else if ev.shiftKey then
      (if FocusTrap.IsActive(active, FocusTrap.First(state)) then FocusTrap.TabDecision(FocusTrap.Last(state), true)
       else FocusTrap.Pass)
    else if FocusTrap.IsActive(active, FocusTrap.Last(state)) then FocusTrap.TabDecision(FocusTrap.First(state), true)
    else FocusTrap.Pass
  }

  /** Shift held on the last element never takes the forward branch, even when first and last differ. */
  lemma ShiftOnLastIsNotIntercepted(found: seq<Element>)
    requires |found| >= 2 && Distinct(found)
    ensures HandleTab(Some(FocusTrap.BoundariesOf(found)), FocusTrap.KeyEvent("Tab", true), Some(found[|found| - 1]))
      == FocusTrap.Pass
  {
  }

  /** For every key, shift flag, active element and state the two copies decide the same thing. */
  lemma HandleTabMatchesHookCopy(state: FocusTrap.TrapState, ev: FocusTrap.KeyEvent, active: Option<Element>)
    ensures HandleTab(state, ev, active) == FocusTrap.HandleTab(state, ev, active)
  {
  }

}

=== FILE: legacy_footer.dfy ===
/**
 `ModalFooter` of src/ui/Modal/Footer.tsx, whose body is also the footer
 written inline in src/ui/Modal/Modal.tsx. Here the footer writes `variant`
 and its composed `onClick` first and spreads the caller's props after
 them, so a caller-supplied `onClick` key replaces the composed handler.
 */
module LegacyFooter {
  import opened Wrappers
  import opened Props
  import Footer

  /** This footer spreads the caller's props after its own. */
  const Order := SpreadLast

  /**
   What clicking control `c` does, by the shape of the caller's `onClick`:
   absent, the composed handler runs and closes; a callback, only that
   callback runs and nothing closes; present but `undefined`, nothing runs.
   */
  lemma ClickByCallerOnClick(action: Option<ButtonProps>, dismiss: Option<ButtonProps>, c: Control)
    requires PropsOf(action, dismiss, c).Some?
    requires CallerProps(PropsOf(action, dismiss, c).value)
    ensures var p := PropsOf(action, dismiss, c).value;
      var effects := ClickControl(Render(Order, action, dismiss), c);
      && (OnClickKey !in p ==> effects == [RunClose])
      && (OnClickKey in p && p[OnClickKey].Fn? ==> effects == [RunCallback(p[OnClickKey].handler.id)])
      && (OnClickKey in p && p[OnClickKey] == Undefined ==> effects == [])
      && (CloseCount(effects) == 1 <==> OnClickKey !in p)
  {
    ClickHitsOwnButton(Order, action, dismiss, c);
    ClickClosesAtMostOnce(ButtonFor(Order, PropsOf(action, dismiss, c).value, c));
  }

  /** No click on this footer closes more than once. */
  lemma ClickClosesAtMostOnceHere(action: Option<ButtonProps>, dismiss: Option<ButtonProps>, c: Control)
    ensures CloseCount(ClickControl(Render(Order, action, dismiss), c)) <= 1
  {
    ClickHitsOwnButton(Order, action, dismiss, c);
    if PropsOf(action, dismiss, c).Some? {
      ClickClosesAtMostOnce(ButtonFor(Order, PropsOf(action, dismiss, c).value, c));
    }
  }

  /** The variant is the footer's only while the caller props leave `variant` out, as their type demands. */
  lemma VariantKeptForCallerProps(p: ButtonProps, c: Control)
    requires CallerProps(p)
    ensures ButtonFor(Order, p, c)[VariantKey] == VariantValue(ControlVariant(c))
  {
  }

  /**
   The two merge orders give the same click behaviour exactly when the
   caller's props carry no `onClick` key.
   */
  lemma SameClickAsFooterIffNoCallerOnClick(p: ButtonProps, c: Control)
    requires CallerProps(p)
    ensures Click(ButtonFor(Order, p, c)) == Click(ButtonFor(Footer.Order, p, c)) <==> OnClickKey !in p
  {
  }

}

=== FILE: modal_lifecycle.dfy ===
/**
 `Modal` and `ModalOpened` of src/ui/Modal/Modal.tsx as a state machine.
 The world holds the instance's phase, the document's click listeners, the
 pending timers, the clock and a log of the caller callbacks that have run.
 Events are the renders with `isOpen`, the commit of the mount effects,
 document clicks, clicks on the header cross and on footer controls, and
 clock ticks.
 */
module ModalLifecycle {
  import opened Wrappers
  import opened Props
  import opened Timers
  import LegacyFooter

  /** The delay between a close request and the caller's `onClose`. */
  const CloseDelay: nat := 500

  /** The `animation` state: `undefined`, "in" or "out". */
  datatype Animation = NoAnimation | FadeIn | FadeOut

  /** A DOM node, as the target of a click. */
  type NodeId = nat

  /** The `footer` prop. */
  datatype FooterConfig = FooterConfig(action: Option<ButtonProps>, dismiss: Option<ButtonProps>)

  /**
   The props that matter here: the caller's `onClose`, the `footer`, and
   the overlay `div` that `ref` points at once mounted.
   */
  datatype Config = Config(onClose: CallbackId, footer: Option<FooterConfig>, overlay: NodeId)

  /**
   `Unmounted` while `isOpen` is false. `listener` is the id of the click
   listener the mount effect registered, `None` before the effects ran.
   */
  datatype Phase = Unmounted | Mounted(animation: Animation, listener: Option<nat>)

  datatype World = World(
    phase: Phase,
    clickListeners: seq<nat>,
    timers: seq<Timer<CallbackId>>,
    now: nat,
    log: seq<CallbackId>,
    nextListener: nat)

  datatype Event =
    | Render(isOpen: bool)
    | RunEffects
    | DocumentClick(target: NodeId)
    | CrossClick
    | FooterClick(control: Control)
    | Tick

  const Initial := World(Unmounted, [], [], 0, [], 0)

  /** `footer?.action || footer?.dismiss`: a `footer` with neither renders no footer. */
  predicate FooterShown(cfg: Config) {
    cfg.footer.Some? && (cfg.footer.value.action.Some? || cfg.footer.value.dismiss.Some?)
  }

  /** The footer buttons on screen; the inline footer merges props like src/ui/Modal/Footer.tsx. */
  function FooterButtons(cfg: Config): (r: seq<RenderedButton>)
    ensures |r| > 0 <==> FooterShown(cfg)
  {
    if FooterShown(cfg) then Props.Render(LegacyFooter.Order, cfg.footer.value.action, cfg.footer.value.dismiss) else []
  }

  /** `removeEventListener`: every registration of that listener goes. */
  function RemoveListener(ls: seq<nat>, id: nat): (r: seq<nat>)
    ensures forall x :: x in r <==> x in ls && x != id
  {
    if |ls| == 0 then []
    else (if ls[0] == id then [] else [ls[0]]) + RemoveListener(ls[1..], id)
  }

  /** `animatedOnClose`: set the animation to "out" and schedule `onClose`. */
  function AnimatedOnClose(cfg: Config, w: World): (r: World)
    ensures |r.timers| == |w.timers| + 1 && r.timers[|w.timers|].callback == cfg.onClose
  {
    w.(phase := if w.phase.Mounted? then Mounted(FadeOut, w.phase.listener) else w.phase,
       timers := w.timers + [Timer(w.now + CloseDelay, cfg.onClose)])
  }

  /** Running the effects of one click handler, in order. */
  function ApplyEffects(cfg: Config, w: World, effects: seq<Effect>): (r: World)
    decreases |effects|
  {
    if |effects| == 0 then w
    else
      var w' := match effects[0]
        case RunCallback(id) => w.(log := w.log + [id])
        case RunClose => AnimatedOnClose(cfg, w);
      ApplyEffects(cfg, w', effects[1..])
  }

  /** The instance's own click listener is registered with the document. */
  predicate ListenerRegistered(w: World) {
    w.phase.Mounted? && w.phase.listener.Some? && w.phase.listener.value in w.clickListeners
  }

  function Step(cfg: Config, w: World, e: Event): (r: World) {
    match e
    case Render(isOpen) =>
      (match w.phase
       case Unmounted => if isOpen then w.(phase := Mounted(NoAnimation, None)) else w
       case Mounted(_, listener) =>
         if isOpen then w
         else if listener.Some? then w.(phase := Unmounted, clickListeners := RemoveListener(w.clickListeners, listener.value))
         else w.(phase := Unmounted))
    case RunEffects =>
      if w.phase.Mounted? && w.phase.listener.None? then
        w.(phase := Mounted(FadeIn, Some(w.nextListener)),
           clickListeners := w.clickListeners + [w.nextListener],
           nextListener := w.nextListener + 1)
      else w
    case DocumentClick(target) =>
      if ListenerRegistered(w) && target == cfg.overlay then AnimatedOnClose(cfg, w) else w
    case CrossClick =>
      if w.phase.Mounted? then AnimatedOnClose(cfg, w) else w
    case FooterClick(c) =>
      if w.phase.Mounted? then ApplyEffects(cfg, w, ClickControl(FooterButtons(cfg), c)) else w
    case Tick => Advance(w)
  }

  /** One unit of time passes; the timers now due run their callbacks in queue order. */
  function Advance(w: World): (r: World) {
    var t := w.now + 1;
    w.(now := t, log := w.log + Fired(w.timers, t), timers := Remaining(w.timers, t))
  }

  /** A run of events from left to right. */
  function Run(cfg: Config, w: World, events: seq<Event>): (r: World)
    decreases |events|
  {
    if |events| == 0 then w else Run(cfg, Step(cfg, w, events[0]), events[1..])
  }

  /**
   What holds between events: the timer queue is in firing order with every
   task due within the next `CloseDelay` units, and the document holds the
   instance's click listener exactly while it is mounted with effects run.
   */
  predicate Inv(w: World) {
    && Ordered(w.timers)
    && (forall i :: 0 <= i < |w.timers| ==> w.now < w.timers[i].due <= w.now + CloseDelay)
    && w.clickListeners == (if w.phase.Mounted? && w.phase.listener.Some? then [w.phase.listener.value] else [])
  }

  lemma InitialSatisfiesInv()
    ensures Inv(Initial)
  {
  }

  /** A close request keeps the invariant: the new task is due last. */
  lemma AnimatedOnClosePreservesInv(cfg: Config, w: World)
    requires Inv(w)
    ensures Inv(AnimatedOnClose(cfg, w))
  {
  }

  lemma {:induction false} ApplyEffectsPreservesInv(cfg: Config, w: World, effects: seq<Effect>)
    requires Inv(w)
    ensures Inv(ApplyEffects(cfg, w, effects))
    decreases |effects|
  {
    if |effects| > 0 {
      var w' := match effects[0]
        case RunCallback(id) => w.(log := w.log + [id])
        case RunClose => AnimatedOnClose(cfg, w);
      ApplyEffectsPreservesInv(cfg, w', effects[1..]);
    }
  }

  /** Every event keeps the invariant. */
  lemma StepPreservesInv(cfg: Config, w: World, e: Event)
    requires Inv(w)
    ensures Inv(Step(cfg, w, e))
  {
    match e
    case FooterClick(c) =>
      if w.phase.Mounted? {
        ApplyEffectsPreservesInv(cfg, w, ClickControl(FooterButtons(cfg), c));
      }
    case Render(isOpen) =>
      if !isOpen && w.phase.Mounted? && w.phase.listener.Some? {
        var l := w.phase.listener.value;
        assert RemoveListener([l], l) == [] + RemoveListener([l][1..], l);
      }
    case Tick =>
      AdvancePreservesInv(w);
    case _ =>
  }

  /** A tick keeps the invariant: the tasks left are the later ones, still in order. */
  lemma AdvancePreservesInv(w: World)
    requires Inv(w)
    ensures Inv(Advance(w))
  {
    var t := w.now + 1;
    var rest := Remaining(w.timers, t);
    RemainingAreTheLaterTasks(w.timers, t);
    forall i | 0 <= i < |rest|
      ensures t < rest[i].due <= t + CloseDelay
    {
      assert rest[i] in rest;
    }
  }

  /**
   Every reachable world keeps the invariant; in particular the document
   never holds more than the one listener of the mounted instance.
   */
  lemma {:induction false} RunPreservesInv(cfg: Config, w: World, events: seq<Event>)
    requires Inv(w)
    ensures Inv(Run(cfg, w, events))
    ensures |Run(cfg, w, events).clickListeners| <= 1
    decreases |events|
  {
    if |events| > 0 {
      StepPreservesInv(cfg, w, events[0]);
      RunPreservesInv(cfg, Step(cfg, w, events[0]), events[1..]);
    }
  }

  /** While the modal is closed nothing is rendered: no listener and no pending work of its own. */
  lemma ClosedModalIsInert(cfg: Config, w: World, e: Event)
    requires Inv(w) && w.phase.Unmounted?
    requires e != Render(true) && e != Tick
    ensures w.clickListeners == []
    ensures Step(cfg, w, e) == w
  {
  }

  /**
   Opening renders with the animation still `undefined` and no listener;
   the commit of the mount effects then registers exactly one click
   listener and switches the animation to "in".
   */
  lemma OpenThenEffects(cfg: Config, w: World)
    requires Inv(w) && w.phase.Unmounted?
    ensures var shown := Step(cfg, w, Render(true));
      && shown.phase == Mounted(NoAnimation, None)
      && shown.clickListeners == []
      && var committed := Step(cfg, shown, RunEffects);
      && committed.phase == Mounted(FadeIn, Some(w.nextListener))
      && committed.clickListeners == [w.nextListener]
      && committed.timers == w.timers && committed.log == w.log
  {
  }

  /**
   A close request from the header cross sets the animation to "out" and
   queues one `onClose`, `CloseDelay` units ahead; nothing runs now.
   */
  lemma CloseRequestIsDeferred(cfg: Config, w: World)
    requires Inv(w) && w.phase.Mounted?
    ensures var r := Step(cfg, w, CrossClick);
      && r.phase == Mounted(FadeOut, w.phase.listener)
      && r.timers == w.timers + [Timer(w.now + CloseDelay, cfg.onClose)]
      && r.log == w.log
      && r.clickListeners == w.clickListeners && r.now == w.now
  {
  }

  /**
   A document click closes only when its target is the overlay itself and
   the listener is in place; any other target changes nothing.
   */
  lemma OnlyOverlayClickCloses(cfg: Config, w: World, target: NodeId)
    ensures target != cfg.overlay ==> Step(cfg, w, DocumentClick(target)) == w
    ensures !ListenerRegistered(w) ==> Step(cfg, w, DocumentClick(target)) == w
    ensures ListenerRegistered(w) && target == cfg.overlay ==>
      Step(cfg, w, DocumentClick(target)) == Step(cfg, w, CrossClick)
  {
  }

  /**
   Closing the modal runs the listener effect's cleanup: the same listener
   goes and the document is left with none. Pending timers are not cleared.
   */
  lemma UnmountRemovesListener(cfg: Config, w: World)
    requires Inv(w) && w.phase.Mounted?
    ensures var r := Step(cfg, w, Render(false));
      && r.phase == Unmounted && r.clickListeners == []
      && r.timers == w.timers && r.log == w.log
  {
    if w.phase.listener.Some? {
      var l := w.phase.listener.value;
      assert RemoveListener([l], l) == [] + RemoveListener([l][1..], l);
    }
  }

  /** `n` clicks of the same event in a row. */
  function Repeat(e: Event, n: nat): (r: seq<Event>)
    ensures |r| == n
  {
    seq(n, _ => e)
  }

  /**
   There is no guard against repeated requests: `n` cross clicks queue `n`
   separate `onClose` tasks, all due `CloseDelay` units from now.
   */
  lemma {:induction false} RepeatedRequestsEachSchedule(cfg: Config, w: World, n: nat)
    requires w.phase.Mounted?
    ensures var r := Run(cfg, w, Repeat(CrossClick, n));
      && r.timers == w.timers + seq(n, _ => Timer(w.now + CloseDelay, cfg.onClose))
      && r.log == w.log && r.now == w.now
      && (n > 0 ==> r.phase == Mounted(FadeOut, w.phase.listener))
      && (n == 0 ==> r.phase == w.phase)
    decreases n
  {
    if n > 0 {
      var w1 := Step(cfg, w, CrossClick);
      assert Repeat(CrossClick, n)[1..] == Repeat(CrossClick, n - 1);
      RepeatedRequestsEachSchedule(cfg, w1, n - 1);
      assert [Timer(w.now + CloseDelay, cfg.onClose)] + seq(n - 1, _ => Timer(w.now + CloseDelay, cfg.onClose))
        == seq(n, _ => Timer(w.now + CloseDelay, cfg.onClose));
    }
  }

  /** `k` clock ticks. */
  function Ticks(w: World, k: nat): (r: World) {
    if k == 0 then w else Advance(Ticks(w, k - 1))
  }

  /** A tick with nothing due only moves the clock. */
  lemma QuietTick(w: World)
    requires forall i :: 0 <= i < |w.timers| ==> w.now + 1 < w.timers[i].due
    ensures Advance(w) == w.(now := w.now + 1)
  {
    NothingDueKeepsQueue(w.timers, w.now + 1);
    assert w.log + [] == w.log;
  }

  /** No task fires before its due time: until then ticks only advance the clock. */
  lemma {:induction false} NothingFiresEarly(w: World, k: nat)
    requires forall i :: 0 <= i < |w.timers| ==> w.now + k < w.timers[i].due
    ensures Ticks(w, k) == w.(now := w.now + k)
  {
    if k > 0 {
      NothingFiresEarly(w, k - 1);
      QuietTick(Ticks(w, k - 1));
    }
  }

  /**
   A queue of `n` copies of one task due `CloseDelay` ticks from now stays
   silent for `CloseDelay - 1` ticks and then runs all `n` at once.
   */
  lemma QueuedClosesFireTogether(w: World, n: nat, cb: CallbackId)
    requires w.timers == seq(n, _ => Timer(w.now + CloseDelay, cb))
    ensures Ticks(w, CloseDelay - 1).log == w.log
    ensures Ticks(w, CloseDelay).log == w.log + seq(n, _ => cb)
    ensures Ticks(w, CloseDelay).timers == []
  {
    var waiting := Ticks(w, CloseDelay - 1);
    assert waiting == w.(now := w.now + CloseDelay - 1) by {
      assert forall i :: 0 <= i < |w.timers| ==> w.timers[i].due == w.now + CloseDelay;
      NothingFiresEarly(w, CloseDelay - 1);
    }
    assert Ticks(w, CloseDelay) == Advance(waiting);
    DueTick(waiting, n, w.now + CloseDelay, cb);
  }

  /** A tick at which `n` copies of one task are all due runs them all and empties the queue. */
  lemma DueTick(w: World, n: nat, due: nat, cb: CallbackId)
    requires due == w.now + 1
    requires w.timers == seq(n, _ => Timer(due, cb))
    ensures Advance(w).log == w.log + seq(n, _ => cb)
    ensures Advance(w).timers == []
  {
    SameTasksAllFire(n, due, cb, due);
  }

  /**
   From a mounted modal with nothing pending, `n` close requests make the
   caller's `onClose` run `n` times, all at once, exactly `CloseDelay`
   ticks later, and not a tick earlier.
   */
  lemma RequestsFireAfterDelay(cfg: Config, w: World, n: nat)
    requires w.phase.Mounted? && w.timers == []
    ensures var requested := Run(cfg, w, Repeat(CrossClick, n));
      && Ticks(requested, CloseDelay - 1).log == w.log
      && Ticks(requested, CloseDelay).log == w.log + seq(n, _ => cfg.onClose)
      && Ticks(requested, CloseDelay).timers == []
  {
    var requested := Run(cfg, w, Repeat(CrossClick, n));
    RepeatedRequestsEachSchedule(cfg, w, n);
    assert requested.timers == seq(n, _ => Timer(w.now + CloseDelay, cfg.onClose));
    QueuedClosesFireTogether(requested, n, cfg.onClose);
  }

  /** The caller props of control `c` in the configured footer. */
  function ControlProps(cfg: Config, c: Control): (p: Option<ButtonProps>) {
    if cfg.footer.None? then None else PropsOf(cfg.footer.value.action, cfg.footer.value.dismiss, c)
  }

  /**
   A footer control whose props carry no `onClick` routes to the same
   `animatedOnClose` as the header cross.
   */
  lemma FooterRoutesLikeCross(cfg: Config, w: World, c: Control)
    requires w.phase.Mounted?
    requires ControlProps(cfg, c).Some? && CallerProps(ControlProps(cfg, c).value)
    requires OnClickKey !in ControlProps(cfg, c).value
    ensures Step(cfg, w, FooterClick(c)) == Step(cfg, w, CrossClick)
  {
    var f := cfg.footer.value;
    assert FooterButtons(cfg) == Props.Render(LegacyFooter.Order, f.action, f.dismiss);
    LegacyFooter.ClickByCallerOnClick(f.action, f.dismiss, c);
    assert ClickControl(FooterButtons(cfg), c) == [RunClose];
    assert [RunClose][1..] == [];
  }

  /**
   In the inline footer a caller `onClick` replaces the composed handler:
   the callback runs and the modal neither animates out nor schedules `onClose`.
   */
  lemma FooterCallerOnClickSkipsClose(cfg: Config, w: World, c: Control, id: CallbackId)
    requires w.phase.Mounted?
    requires ControlProps(cfg, c).Some? && CallerProps(ControlProps(cfg, c).value)
    requires OnClickKey in ControlProps(cfg, c).value && ControlProps(cfg, c).value[OnClickKey] == Fn(Callback(id))
    ensures Step(cfg, w, FooterClick(c)) == w.(log := w.log + [id])
  {
    var f := cfg.footer.value;
    var p := ControlProps(cfg, c).value;
    assert FooterButtons(cfg) == Props.Render(LegacyFooter.Order, f.action, f.dismiss);
    LegacyFooter.ClickByCallerOnClick(f.action, f.dismiss, c);
    assert ClickControl(FooterButtons(cfg), c) == [RunCallback(id)];
    CallbackEffectLogs(cfg, w, id);
  }

  /** A lone callback effect only appends its callback to the log. */
  lemma CallbackEffectLogs(cfg: Config, w: World, id: CallbackId)
    ensures ApplyEffects(cfg, w, [RunCallback(id)]) == w.(log := w.log + [id])
  {
    var logged := w.(log := w.log + [id]);
    assert ApplyEffects(cfg, w, [RunCallback(id)]) == ApplyEffects(cfg, logged, [RunCallback(id)][1..]);
    assert [RunCallback(id)][1..] == [];
  }

}

=== FILE: props.dfy ===
/**
 JSX props of the footer buttons. A props object is a map from key to value;
 writing attributes and spreads left to right builds it with "later key wins".
 Clicking a rendered `Button` runs whatever its `onClick` prop holds. Both
 versions of `ModalFooter` render the same buttons and differ only in where
 they spread the caller's props, which `SpreadOrder` records.
 */
module Props {
  import opened Wrappers

  /** A caller-supplied callback, identified by name. */
  type CallbackId = nat

  datatype Variant = ActionVariant | DefaultVariant

  /**
   A function value: a caller's callback, or the footer's own composed
   handler `() => { p?.onClick?.(); onClose(); }`, which carries the
   caller's `onClick` it will call first (`None` when there is none).
   */
  datatype Handler = Callback(id: CallbackId) | CloseAfter(callerOnClick: Option<CallbackId>)

  datatype PropKey = OnClickKey | VariantKey | TextKey | OtherKey(name: string)

  /** `Undefined` is a key that is present with the value `undefined`. */
  datatype PropValue = Undefined | Text(text: string) | Fn(handler: Handler) | VariantValue(variant: Variant)

  type ButtonProps = map<PropKey, PropValue>

  /** Writing `later` after `earlier` in one JSX element: every key of `later` wins. */
  function Spread(earlier: ButtonProps, later: ButtonProps): (r: ButtonProps)
    ensures r.Keys == earlier.Keys + later.Keys
    ensures forall k :: k in later ==> r[k] == later[k]
    ensures forall k :: k in earlier && k !in later ==> r[k] == earlier[k]
  {
    earlier + later
  }

  /**
   Props a caller may pass for a footer control, `Omit<ButtonProps, "variant">`:
   no `variant`, and an `onClick` that is a callback or `undefined`.
   */
  predicate CallerProps(p: ButtonProps) {
    && VariantKey !in p
    && (OnClickKey in p ==> p[OnClickKey] == Undefined || (p[OnClickKey].Fn? && p[OnClickKey].handler.Callback?))
  }

  /** `p?.onClick`, when it is a function. */
  function CallerOnClick(p: ButtonProps): (c: Option<CallbackId>)
    ensures c.Some? ==> OnClickKey in p && p[OnClickKey] == Fn(Callback(c.value))
    ensures c.None? ==> OnClickKey !in p || !(p[OnClickKey].Fn? && p[OnClickKey].handler.Callback?)
    ensures CallerProps(p) ==> (c.None? <==> OnClickKey !in p || p[OnClickKey] == Undefined)
  {
    if OnClickKey in p && p[OnClickKey].Fn? && p[OnClickKey].handler.Callback? then Some(p[OnClickKey].handler.id)
    else None
  }

  /** The handler a footer composes for the control whose caller props are `p`. */
  function Composed(p: ButtonProps): (v: PropValue)
    ensures v.Fn? && v.handler.CloseAfter?
  {
    Fn(CloseAfter(CallerOnClick(p)))
  }

  /** What running a click handler does, in order. */
  datatype Effect = RunCallback(id: CallbackId) | RunClose

  /**
   The effects of clicking a button with these props: its `onClick`, if it
   holds a function, runs; `undefined` or no `onClick` does nothing.
   */
  function Click(props: ButtonProps): (effects: seq<Effect>)
    ensures |effects| <= 2
  {
    if OnClickKey !in props then []
    else match props[OnClickKey]
      case Fn(Callback(id)) => [RunCallback(id)]
      case Fn(CloseAfter(first)) => (if first.Some? then [RunCallback(first.value)] else []) + [RunClose]
      case _ => []
  }

  /** How many times a sequence of effects closes the modal. */
  function CloseCount(effects: seq<Effect>): (n: nat)
    ensures n <= |effects|
  {
    if |effects| == 0 then 0
    else (if effects[0] == RunClose then 1 else 0) + CloseCount(effects[1..])
  }

  /** A click closes at most once, and only a composed handler closes. */
  lemma ClickClosesAtMostOnce(props: ButtonProps)
    ensures CloseCount(Click(props)) <= 1
    ensures CloseCount(Click(props)) == 1 <==> OnClickKey in props && props[OnClickKey].Fn? && props[OnClickKey].handler.CloseAfter?
  {
    var effects := Click(props);
    if OnClickKey in props && props[OnClickKey].Fn? && props[OnClickKey].handler.CloseAfter? {
      var first := props[OnClickKey].handler.callerOnClick;
      if first.Some? {
        assert effects == [RunCallback(first.value), RunClose];
        assert CloseCount(effects) == CloseCount(effects[1..]);
      } else {
        assert effects == [RunClose];
      }
    } else if OnClickKey in props && props[OnClickKey].Fn? {
      assert effects == [RunCallback(props[OnClickKey].handler.id)];
      assert CloseCount(effects) == CloseCount(effects[1..]);
    }
  }

  /** The two footer controls. */
  datatype Control = ActionControl | DismissControl

  /** The variant each footer writes for a control. */
  function ControlVariant(c: Control): (v: Variant) {
    if c == ActionControl then ActionVariant else DefaultVariant
  }

  /** A rendered footer button: which control it is and the props it received. */
  datatype RenderedButton = RenderedButton(control: Control, props: ButtonProps)

  /** The effects of clicking control `c` in a rendered footer; nothing when it is not rendered. */
  function ClickControl(buttons: seq<RenderedButton>, c: Control): (effects: seq<Effect>)
    ensures (forall i :: 0 <= i < |buttons| ==> buttons[i].control != c) ==> effects == []
    ensures |buttons| > 0 && buttons[0].control == c ==> effects == Click(buttons[0].props)
  {
    if |buttons| == 0 then []
    else if buttons[0].control == c then Click(buttons[0].props)
    else ClickControl(buttons[1..], c)
  }

  /**
   Where a footer spreads the caller's props relative to its own `variant`
   and composed `onClick`: before them (src/ui/Modal/Footer/Footer.tsx) or
   after them (src/ui/Modal/Footer.tsx and the footer inline in Modal.tsx).
   */
  datatype SpreadOrder = SpreadFirst | SpreadLast

  /** The props one footer control's `Button` receives. */
  function ButtonFor(order: SpreadOrder, p: ButtonProps, c: Control): (b: ButtonProps)
    ensures b.Keys == p.Keys + {VariantKey, OnClickKey}
    ensures order == SpreadFirst ==>
      && b[VariantKey] == VariantValue(ControlVariant(c))
      && b[OnClickKey] == Fn(CloseAfter(CallerOnClick(p)))
      && forall k :: k in p && k != VariantKey && k != OnClickKey ==> b[k] == p[k]
    ensures order == SpreadLast ==>
      && (forall k :: k in p ==> b[k] == p[k])
      && (VariantKey !in p ==> b[VariantKey] == VariantValue(ControlVariant(c)))
      && (OnClickKey !in p ==> b[OnClickKey] == Fn(CloseAfter(None)))
  {
    var own := Spread(map[VariantKey := VariantValue(ControlVariant(c))], map[OnClickKey := Composed(p)]);
    if order == SpreadFirst then Spread(p, own) else Spread(own, p)
  }

  /** The footer's buttons in render order: `{action && …}` then `{dismiss && …}`. */
  function Render(order: SpreadOrder, action: Option<ButtonProps>, dismiss: Option<ButtonProps>): (r: seq<RenderedButton>)
    ensures |r| == (if action.Some? then 1 else 0) + (if dismiss.Some? then 1 else 0)
    ensures forall i :: 0 <= i < |r| && r[i].control == ActionControl ==> action.Some? && i == 0
    ensures forall i :: 0 <= i < |r| && r[i].control == DismissControl ==> dismiss.Some? && i == |r| - 1
    ensures action.Some? ==> r[0] == RenderedButton(ActionControl, ButtonFor(order, action.value, ActionControl))
    ensures dismiss.Some? ==> r[|r| - 1] == RenderedButton(DismissControl, ButtonFor(order, dismiss.value, DismissControl))
  {
    (if action.Some? then [RenderedButton(ActionControl, ButtonFor(order, action.value, ActionControl))] else [])
    + (if dismiss.Some? then [RenderedButton(DismissControl, ButtonFor(order, dismiss.value, DismissControl))] else [])
  }

  /** The caller props of control `c`, if that control is given. */
  function PropsOf(action: Option<ButtonProps>, dismiss: Option<ButtonProps>, c: Control): (p: Option<ButtonProps>) {
    if c == ActionControl then action else dismiss
  }

  /** Clicking a control runs its own button's handler; a control that is not given does nothing. */
  lemma {:induction false} ClickHitsOwnButton(order: SpreadOrder, action: Option<ButtonProps>, dismiss: Option<ButtonProps>, c: Control)
    ensures var effects := ClickControl(Render(order, action, dismiss), c);
      match PropsOf(action, dismiss, c)
      case None => effects == []
      case Some(p) => effects == Click(ButtonFor(order, p, c))
  {
    var buttons := Render(order, action, dismiss);
    if c == DismissControl && action.Some? && dismiss.Some? {
      assert buttons[1..] == [RenderedButton(DismissControl, ButtonFor(order, dismiss.value, DismissControl))];
    }
    if c == ActionControl && action.None? && dismiss.Some? {
      assert buttons[1..] == [];
    }
    if c == DismissControl && action.Some? && dismiss.None? {
      assert buttons[1..] == [];
    }
  }

}

=== FILE: sequences.dfy ===
/** Facts about sequences used by more than one module. */
module Sequences {

  /** `r` is `s` with some elements dropped and the rest kept in order. */
  predicate IsSubsequence<T(==)>(r: seq<T>, s: seq<T>)
    decreases |s|
  {
    if |r| == 0 then true
    else if |s| == 0 then false
    else (r[0] == s[0] && IsSubsequence(r[1..], s[1..])) || IsSubsequence(r, s[1..])
  }

}

=== FILE: timers.dfy ===
/**
 `setTimeout` as an explicit queue of pending tasks. Time advances in unit
 ticks; a tick fires, in queue order, every task whose due time has come.
 */
module Timers {
  import opened Sequences

  /** A pending `setTimeout(callback, delay)`: the callback runs at time `due`. */
  datatype Timer<T> = Timer(due: nat, callback: T)

  /** Due times never decrease along the queue, so queue order is firing order. */
  predicate Ordered<T>(ts: seq<Timer<T>>) {
    forall i, j :: 0 <= i < j < |ts| ==> ts[i].due <= ts[j].due
  }

  /** The callbacks of a queue, in queue order. */
  function Callbacks<T>(ts: seq<Timer<T>>): (r: seq<T>)
    ensures |r| == |ts| && forall i :: 0 <= i < |ts| ==> r[i] == ts[i].callback
  {
    if |ts| == 0 then [] else [ts[0].callback] + Callbacks(ts[1..])
  }

  /** The callbacks of the timers due at or before time `t`, in queue order. */
  function Fired<T>(ts: seq<Timer<T>>, t: nat): (r: seq<T>)
    ensures |r| <= |ts|
    ensures (forall i :: 0 <= i < |ts| ==> ts[i].due > t) ==> r == []
  {
    if |ts| == 0 then []
    else (if ts[0].due <= t then [ts[0].callback] else []) + Fired(ts[1..], t)
  }

  /** The timers still pending after time `t`. */
  function Remaining<T>(ts: seq<Timer<T>>, t: nat): (r: seq<Timer<T>>)
    ensures |r| <= |ts|
  {
    if |ts| == 0 then []
    else (if ts[0].due <= t then [] else [ts[0]]) + Remaining(ts[1..], t)
  }

  /** The pending tasks are exactly the queued ones not yet due, and they stay in firing order. */
  lemma {:induction false} RemainingAreTheLaterTasks<T>(ts: seq<Timer<T>>, t: nat)
    ensures forall x :: x in Remaining(ts, t) <==> x in ts && x.due > t
    ensures Ordered(ts) ==> Ordered(Remaining(ts, t))
  {
    if |ts| > 0 {
      RemainingAreTheLaterTasks(ts[1..], t);
      assert forall x :: x in ts <==> x == ts[0] || x in ts[1..];
      if Ordered(ts) {
        DueBoundKept(ts[1..], t, ts[0].due);
      }
    }
  }

  /** A lower bound on the due times of a queue bounds the pending ones too. */
  lemma {:induction false} DueBoundKept<T>(ts: seq<Timer<T>>, t: nat, d: nat)
    requires forall i :: 0 <= i < |ts| ==> d <= ts[i].due
    ensures forall i :: 0 <= i < |Remaining(ts, t)| ==> d <= Remaining(ts, t)[i].due
  {
    if |ts| > 0 {
      DueBoundKept(ts[1..], t, d);
    }
  }

  /** A tick before every task's due time leaves the queue as it is. */
  lemma {:induction false} NothingDueKeepsQueue<T>(ts: seq<Timer<T>>, t: nat)
    requires forall i :: 0 <= i < |ts| ==> ts[i].due > t
    ensures Remaining(ts, t) == ts
    ensures Fired(ts, t) == []
  {
    if |ts| > 0 {
      NothingDueKeepsQueue(ts[1..], t);
    }
  }

  /** `n` identical tasks due at `due`: all of them fire, in order, once their time has come. */
  lemma {:induction false} SameTasksAllFire<T>(n: nat, due: nat, cb: T, t: nat)
    requires due <= t
    ensures Fired(seq(n, _ => Timer(due, cb)), t) == seq(n, _ => cb)
    ensures Remaining(seq(n, _ => Timer(due, cb)), t) == []
  {
    if n > 0 {
      SameTasksAllFire(n - 1, due, cb, t);
      assert seq(n, _ => Timer(due, cb))[1..] == seq(n - 1, _ => Timer(due, cb));
      assert seq(n, _ => cb) == [cb] + seq(n - 1, _ => cb);
    }
  }

  /** A tick neither loses nor duplicates a task: each one either fires or stays pending. */
  lemma {:induction false} FiredAndRemainingPartition<T>(ts: seq<Timer<T>>, t: nat)
    ensures |Fired(ts, t)| + |Remaining(ts, t)| == |ts|
  {
    if |ts| > 0 {
      FiredAndRemainingPartition(ts[1..], t);
    }
  }

  /**
   A tick loses and duplicates no task: the callbacks fired and those still
   pending are, together, exactly the queued callbacks.
   */
  lemma {:induction false} FiredAndRemainingKeepCallbacks<T>(ts: seq<Timer<T>>, t: nat)
    ensures multiset(Fired(ts, t)) + multiset(Callbacks(Remaining(ts, t))) == multiset(Callbacks(ts))
  {
    if |ts| > 0 {
      FiredAndRemainingKeepCallbacks(ts[1..], t);
      var cb := ts[0].callback;
      var fired := Fired(ts[1..], t);
      var pending := Callbacks(Remaining(ts[1..], t));
      assert Callbacks(ts) == [cb] + Callbacks(ts[1..]);
      assert multiset(Callbacks(ts)) == multiset{cb} + multiset(Callbacks(ts[1..]));
      if ts[0].due <= t {
        assert Fired(ts, t) == [cb] + fired;
        assert multiset(Fired(ts, t)) == multiset{cb} + multiset(fired);
        assert Remaining(ts, t) == Remaining(ts[1..], t);
      } else {
        assert Fired(ts, t) == fired;
        assert Callbacks(Remaining(ts, t)) == [cb] + pending;
        assert multiset(Callbacks(Remaining(ts, t))) == multiset{cb} + multiset(pending);
      }
    }
  }

  /** The fired callbacks keep queue order: they are a subsequence of the queued ones. */
  lemma {:induction false} FiredInQueueOrder<T>(ts: seq<Timer<T>>, t: nat)
    ensures IsSubsequence(Fired(ts, t), Callbacks(ts))
  {
    if |ts| > 0 {
      FiredInQueueOrder(ts[1..], t);
      var c := Callbacks(ts);
      var rest := Fired(ts[1..], t);
      assert c[1..] == Callbacks(ts[1..]);
      if ts[0].due <= t {
        assert Fired(ts, t)[1..] == rest;
      } else if |rest| > 0 {
        assert Fired(ts, t) == rest;
      }
    }
  }

  /**
   With the first `k` timers due and the others not (a mixed queue split at
   `k`, as an ordered queue always is), a tick fires exactly the first `k`
   callbacks, in queue order, and keeps the rest pending.
   */
  lemma {:induction false} DuePrefixFires<T>(ts: seq<Timer<T>>, t: nat, k: nat)
    requires k <= |ts|
    requires forall i :: 0 <= i < k ==> ts[i].due <= t
    requires forall i :: k <= i < |ts| ==> ts[i].due > t
    ensures Fired(ts, t) == Callbacks(ts[..k])
    ensures Remaining(ts, t) == ts[k..]
  {
    if k == 0 {
      NothingDueKeepsQueue(ts, t);
      assert ts[0..] == ts;
    } else {
      DuePrefixFires(ts[1..], t, k - 1);
      assert ts[1..][..k - 1] == ts[1..k];
      assert ts[1..][k - 1..] == ts[k..];
      assert Callbacks(ts[..k]) == [ts[0].callback] + Callbacks(ts[1..k]);
    }
  }
}
=== FILE: wrappers.dfy ===
/** The optional value used wherever the source has `T | undefined` or `T | null`. */
module Wrappers {

  datatype Option<+T> = None | Some(value: T)

}
